=== FILE: README.md ===
# Car dealership record store — a Dafny model

This project models `CarService`, the file-backed store of a car dealership. It keeps three
tables: car models, cars and sales. Each table is a record file plus an index file:

- **Record file.** One `;`-separated record per line, padded with blanks to 500 characters
  and ended by `\n`.
- **Index file.** `key;line-number` pairs, kept sorted by key.

The service has eight operations:

- `add_model`, `add_car` and `sell_car` append records;
- `get_cars` and `get_car_info` read them back;
- `update_vin` renames a car's key;
- `revert_sale` deletes a sale and puts the car back on sale;
- `top_models_by_sales` ranks the three best-selling models.

The store is an immutable value, `CarService.Store`. Each of its tables holds the lines of the
record file, terminators included, and the index as parsed `(key, slot)` pairs. Each mutating
operation is a function from a store to a `Step`. A step pairs the store as the operation
leaves the files with the return value or the raised error (`Results.Error`). Writes that
happen before an error are kept, as they are on disk.

Modules:

- `Text`: `ljust`, `rstrip("\n")`, `strip()`, `split(";")` and `";".join`.
- `Numbers`: `f"{n}"` and `int()`.
- `Records`: the three row types and their line layouts.
- `StableSort`: Python's stable `list.sort`, as an insertion sort. `SortUnique` shows that
  the choice of algorithm does not matter.
- `SortedIndex`: the index operations (add, remove, rename). `Lookup` is the dict a reader
  builds from the pairs.
- `Scans`: the two loop shapes the readers use.
- `CarService`: the operations.
- `TopModels`: the ranking.
- `ServiceProperties`: what one operation writes and a later one reads back.

## Model

| member | source | states |
|---|---|---|
| Text.LJust | src/bibip_car_service.py:28 | `ljust(500)` output: exactly 500 characters when the content is shorter, else the content as is; the content comes first, followed by blanks only |
| Text.Record | src/bibip_car_service.py:50-54 | a written line is the padded content plus one `\n`, so its length is `max(500, length) + 1` |
| Text.RecordFields | src/bibip_car_service.py:106 | splitting a written record gives back exactly the fields that were joined; only the last field carries the padding |
| Text.SplitSpec | src/bibip_car_service.py:124 | `split(";")` yields pieces without `;`, and joining them with `;` rebuilds the input |
| Text.StripSpec | src/bibip_car_service.py:166 | `strip()` gives the middle piece of the input, with only whitespace cut from both sides, and neither end of the result is whitespace |
| Text.RStripNewlinesSpec | src/bibip_car_service.py:232 | `rstrip("\n")` removes a suffix made only of `\n` and leaves no `\n` at the end |
| Text.FieldsEncodable | src/bibip_car_service.py:106-108 | the fields read from any line can be joined and written back: no field holds `;` and the last does not end in `\n` |
| Numbers.ParseIntToString | src/bibip_car_service.py:113 | `int()` of a written integer followed by padding gives the integer back |
| Numbers.DigitsRoundTrip | src/bibip_car_service.py:38 | the value of the decimal digits written for `n` is `n` |
| Records.ParseStatus | src/bibip_car_service.py:157 | `CarStatus(v)` succeeds exactly for the three status values, and yields the status whose value is `v` |
| Records.DecodeCar | src/bibip_car_service.py:111-117 | a car is built from line fields exactly when the model id and the price parse; it carries the given VIN, status and start date, and the model id and price those fields read as |
| Records.CarLineRoundTrip | src/bibip_car_service.py:50-54 | the line `add_car` writes reads back as five fields: the VIN first and the status, once stripped, last; decoding it gives back the car |
| Records.ModelLineRoundTrip | src/bibip_car_service.py:28 | the line `add_model` writes reads back with the model id, and the name and brand as `strip()` leaves them |
| Records.SaleLineRoundTrip | src/bibip_car_service.py:79-82 | the line `sell_car` writes reads back with the sale number, VIN, date and cost |
| StableSort.SortSorted | src/bibip_car_service.py:40 | the sort's output is ordered by the key |
| StableSort.SortStable | src/bibip_car_service.py:66 | the sort is stable: elements with equal keys keep their input order |
| StableSort.SortOfSorted | src/bibip_car_service.py:246 | sorting an already ordered list changes nothing |
| StableSort.SortUnique | src/bibip_car_service.py:93 | any ordered list with the same equal-key groups, in the same order, is the sort's output, so every stable sort agrees with this one |
| SortedIndex.EntryOrder | src/bibip_car_service.py:40 | ordering pairs by key (integers for models, code-point string order for VINs and sale numbers) is a total preorder |
| SortedIndex.TiedIffSameKey | src/bibip_car_service.py:66 | two pairs tie in the sort exactly when their keys are equal |
| SortedIndex.Lookup | src/bibip_car_service.py:98-102 | the dict built from the pairs in file order: no slot exactly when no pair has the key, otherwise the slot of the last such pair |
| SortedIndex.LookupAfterSort | src/bibip_car_service.py:93 | sorting the pairs never changes what a lookup finds, even with duplicate keys |
| SortedIndex.Add | src/bibip_car_service.py:39-40 | the index after an insert has one more pair, the new one, and keeps every old pair, so an existing key is not replaced |
| SortedIndex.AddShape | src/bibip_car_service.py:65-66 | after an insert the index is sorted; if it was sorted before, the new pair sits after every pair with a key not greater and before the greater ones |
| SortedIndex.LookupAfterAdd | src/bibip_car_service.py:92-93 | after an insert, the new key resolves to the new slot and every other key resolves as before |
| SortedIndex.Rekey | src/bibip_car_service.py:196-201 | renaming gives every pair with the old key the new key and changes nothing else, slots included |
| SortedIndex.LookupAfterRekey | src/bibip_car_service.py:196-202 | after renaming, the old key resolves to nothing unless it equals the new one; other keys resolve as before; the new key resolves if the old one did |
| SortedIndex.RekeyFresh | src/bibip_car_service.py:196-202 | renaming onto a key the index did not hold: the new key resolves to exactly the slot the old key did |
| SortedIndex.Remove | src/bibip_car_service.py:242-245 | the kept pairs are exactly the old pairs with another key |
| SortedIndex.RemoveCounts | src/bibip_car_service.py:242-245 | each pair with another key is kept as often as the index held it; pairs with the key are gone |
| SortedIndex.RemoveConcat | src/bibip_car_service.py:242-245 | removal works piece by piece, so the kept pairs stay in their file order |
| SortedIndex.RemoveThenSort | src/bibip_car_service.py:241-246 | removal followed by the sort yields a sorted index, and on a sorted index the sort moves nothing, so no slot is renumbered |
| SortedIndex.LookupAfterRemove | src/bibip_car_service.py:244 | removing one key leaves every other key resolving to the same slot |
| SortedIndex.RemoveSortAfterAdd | src/bibip_car_service.py:244-246 | inserting a fresh key into a sorted index, then removing that key and sorting, restores the index exactly |
| Scans.Filter | src/bibip_car_service.py:231-236 | the lines a loop keeps are exactly those that pass the test; none is invented |
| Scans.FilterCounts | src/bibip_car_service.py:231-236 | an accepted line is kept as often as the input holds it; a rejected one never |
| Scans.FilterConcat | src/bibip_car_service.py:123-127 | filtering works piece by piece, so kept lines stay in file order |
| Scans.Traverse | src/bibip_car_service.py:123-134 | a loop that builds one value per line succeeds exactly when every line does, with one value per line; otherwise it raises the error of the first failing line |
| CarService.Append | src/bibip_car_service.py:56-69 | append the record as a new last line and add its pair: the old lines stay, the index is sorted, and the key resolves to the new line |
| CarService.AddModel | src/bibip_car_service.py:25-44 | appends the model's line and indexes it by id; returns the model; cars and sales are untouched |
| CarService.AddCar | src/bibip_car_service.py:47-70 | appends the car's line and indexes it by VIN; returns the car; models and sales are untouched |
| CarService.SellCar | src/bibip_car_service.py:73-117 | the sale is appended and indexed even when a later step fails; an unindexed VIN raises; only the car's own line may change; a slot past the end of `cars.txt` or a car line with fewer than five fields raises IndexError; otherwise the call returns the car decoded from that line, with status sold |
| CarService.GetCars | src/bibip_car_service.py:120-135 | one car per line with five fields and the asked status, in file order, each read from its line; otherwise the parse error |
| CarService.FirstSale | src/bibip_car_service.py:168-175 | the date and cost of the first sales line for the VIN; nothing exactly when every line names another car; it raises only for a short line or a cost that does not parse |
| CarService.FirstSaleFinds | src/bibip_car_service.py:168-175 | when every earlier line names another car and the first line naming the VIN is complete with a readable cost, the scan returns that line's date and cost |
| CarService.GetCarInfo | src/bibip_car_service.py:138-183 | nothing exactly when the VIN is not indexed; a record exactly when the car line, its model's line and (for a sold car) the sales scan all read; the record has price, date and status from the car line, name and brand stripped from the model line, and sale data only for a sold car, from the first matching sale |
| CarService.UpdateVin | src/bibip_car_service.py:186-219 | the index is renamed and re-sorted even when the VIN is missing (which raises); only the car's line changes; a short or missing line raises; otherwise it succeeds exactly when status, model id and price parse, returning the car read from the old line under the new VIN |
| CarService.RemovedVin | src/bibip_car_service.py:231-236 | the VIN of the last line numbered `sn`; nothing exactly when no line is; a numbered line without a VIN field raises |
| CarService.RevertSale | src/bibip_car_service.py:222-276 | see the note after this table |
| CarService.DropSale | src/bibip_car_service.py:228-250 | `sales.txt` keeps the lines with another number; the index holds the other pairs (same multiset), sorted, with no slot renumbered, and every key resolves as before the sort; a sorted input just loses the number's pairs |
| CarService.RestoreCar | src/bibip_car_service.py:256-274 | raises "not found" exactly when the VIN is not indexed and passes on `get_car_info`'s error; succeeds exactly when `get_car_info` returns a record, then only the car's line changes, to status `available` |
| TopModels.ToMapLastWins | src/bibip_car_service.py:284-287 | in `vin2model`, a VIN's model is the one from its last car line |
| TopModels.CountedSales | src/bibip_car_service.py:288-293 | a model is counted exactly when some sales line's VIN is in `vin2model` with that model |
| TopModels.TallyKeys | src/bibip_car_service.py:293 | `counts` holds the counted models, each once, in order of first sale |
| TopModels.TallyCount | src/bibip_car_service.py:293 | `counts[m]` is the number of counted sales of `m` |
| TopModels.AverageWithin | src/bibip_car_service.py:294-301 | a model's average lies between the lowest and the highest price of its cars |
| TopModels.SoldModelsHaveCars | src/bibip_car_service.py:301-302 | every counted model has an entry in `avg`, so the sort key never raises `KeyError` |
| TopModels.TopThree | src/bibip_car_service.py:302 | the ranking is `min(3, n)` rows, ordered by sales and then average, all from the stats; no row left out ranks above a row kept |
| TopModels.RankStable | src/bibip_car_service.py:302 | rows tied on sales and average keep their `counts` order |
| TopModels.RankingExample | src/bibip_car_service.py:302 | for two models with two sales, the higher average comes first; a model with one sale comes after both |
| TopModels.Ranking | src/bibip_car_service.py:284-302 | at most three rows, ordered best first, each with at least one sale |
| TopModels.RankingCounts | src/bibip_car_service.py:288-301 | each ranked row carries its model's number of counted sales and the average price of its cars |
| TopModels.TopModelsBySales | src/bibip_car_service.py:303-317 | one result per ranked row, in ranked order, with its sales count, so the counts never increase; succeeds exactly when every row's model line resolves; each row's name and brand are fields 1 and 2, stripped, of its model's line |
| ServiceProperties.SellCarMarksSold | src/bibip_car_service.py:105-110 | `sell_car` rewrites the car's line with field 4 set to `sold` and every other field as it was; the car it returns is decoded from the old fields |
| ServiceProperties.RevertSaleMarksAvailable | src/bibip_car_service.py:268-274 | when `revert_sale` succeeds, the car's line reads as its old fields with only field 4 set to `available`: VIN, model id, price and date are written back unchanged |
| ServiceProperties.RestoreCarMarksAvailable | src/bibip_car_service.py:268-274 | after the `get_car_info` step succeeds, the car's line reads as its old fields with only field 4 set to `available` |
| ServiceProperties.UpdateVinRewritesLine | src/bibip_car_service.py:207-210 | `update_vin` rewrites the car's line with the new VIN first, field 4 stripped and the other fields unchanged |
| ServiceProperties.UpdateVinForgetsOld | src/bibip_car_service.py:196-205 | after renaming to a different VIN, `get_car_info` of the old VIN finds nothing |
| ServiceProperties.UpdateVinIndexesNew | src/bibip_car_service.py:196-202 | after renaming an indexed VIN, the new VIN is indexed; if it was not indexed before, it resolves to the renamed car's slot |
| ServiceProperties.UpdateVinCarInfo | src/bibip_car_service.py:186-219 | after renaming to a VIN not indexed before, `get_car_info` of the new VIN reports the old VIN's record under the new VIN; for a sold car the sale data comes from the scan for the new VIN, since `sales.txt` keeps the old one |
| ServiceProperties.AddCarThenGetCars | src/bibip_car_service.py:120-135 | after `add_car`, `get_cars` for the car's status lists the old cars and then the new one; for another status it is unchanged |
| ServiceProperties.AddThenCarInfo | src/bibip_car_service.py:138-183 | after adding a model and one of its unsold cars, `get_car_info` of the VIN joins both records, with no sale data |
| ServiceProperties.SellThenCarInfo | src/bibip_car_service.py:168-183 | after selling a car with no earlier sale, `get_car_info` shows it sold, with the new sale's date and cost |
| ServiceProperties.SellThenRevertSales | src/bibip_car_service.py:228-250 | selling under a fresh sale number and reverting that number restores `sales.txt` and its index exactly; the revert finds the sold VIN |
| ServiceProperties.SellThenRevertCar | src/bibip_car_service.py:261-274 | when that revert succeeds, the line of a car `add_car` wrote as available is restored character for character |
| ServiceProperties.SellThenRevertSucceeds | src/bibip_car_service.py:222-276 | for an available car with its model on file and no earlier sale, selling and then reverting returns normally and restores the car's line |
| ServiceProperties.StaleSlotExample | src/bibip_car_service.py:241-259 | reverting the first of two sales keeps one sales line, yet the remaining pair still points at slot 1; with no car on file the revert then raises after both files were rewritten |

`CarService.RevertSale` states:

- If the sale scan raises, nothing changes.
- Otherwise `sales.txt` keeps exactly the lines with another number. The index holds the old
  pairs minus that number, as a multiset, re-sorted, with slots not renumbered. Every key
  resolves as it did once the number's pairs are dropped, and a sorted old index just loses
  those pairs.
- No match raises "not found", after both files were rewritten.
- It raises "car not found" exactly when the removed sale's VIN is not in the cars index. It
  passes on any error `get_car_info` raises.
- It succeeds exactly when `get_car_info` of that VIN returns a record, read with the
  rewritten sales files.
- On success, the removed sale's VIN resolves to a car line. That line now has status
  `available`, and every other car line is unchanged. The line keeps its VIN, model id, price
  and date (`ServiceProperties.RevertSaleMarksAvailable`).
- Models and the cars index never change.

## Left out

- File I/O:
  - opening, creating and flushing files, and file encodings;
  - Python's universal-newline reading, which would split a field containing `\r` or `\n`
    into several lines.

  Each table is one value held in memory, and field text is assumed to contain no line
  terminator.
- Index files are held as parsed `(key, slot)` pairs. Their text form is not modelled: the
  `ln.strip().split(';')` and `int(n)` of each line, and the errors a malformed index line
  would raise.
- Slots are natural numbers, so Python's negative list indexing cannot arise.
- `datetime.fromisoformat` and `isoformat()` are not modelled. Dates are kept as the text
  written, and a malformed date does not raise.
- `Decimal` prices and costs: only whole numbers are modelled. A price or cost with a
  fraction or an exponent reads as a parse error in the model. Python's `int()` is modelled
  without underscores or non-ASCII digits.
- `TopModels.AverageWithin`: averages are exact rationals. `Decimal` division rounds to 28
  significant digits, so two averages that differ only beyond that precision can order
  differently in Python.
- Exception types and messages are collapsed into the `Results.Error` kinds.
- `CarService.RevertSale`: `revert_sale` returns the class object `Car` instead of a car. The
  model returns unit.
- The `models` module (the dataclasses and the `CarStatus` enum) is not part of this model.
  Its shapes are restated in `Records`.
- The constructor's file creation is modelled only as `CarService.Empty`.

Three behaviours of the code that the model keeps:

- `revert_sale` keeps the old slot numbers of the remaining sales pairs, so a pair can point
  past the end of `sales.txt` (see `StaleSlotExample`).
- `add_model`, `add_car` and `sell_car` keep duplicate keys in the index. The later pair wins
  on lookup (see `SortedIndex.LookupAfterAdd`).
- `revert_sale` rewrites both sales files before it raises for a missing sale or car.

=== FILE: car_service.dfy ===
/** `CarService` with its six files held in memory: each table is its list
    of record lines plus its index pairs. Every mutating method is a
    function from the store to a `Step`: the store as the method leaves the
    files, and what it returns or raises. A raise does not undo the files
    already rewritten, so an `Err` step can carry a changed store. */
module CarService {
  import opened Results
  import opened Text
  import opened Numbers
  import opened StableSort
  import opened SortedIndex
  import opened Records
  import opened Scans

  /** A record file (one string per line, terminator included) and its index. */
  datatype Table = Table(lines: seq<string>, index: Index)

  /** `models.txt`/`models_index.txt`, `cars.txt`/`cars_index.txt`,
      `sales.txt`/`sales_index.txt`. */
  datatype Store = Store(models: Table, cars: Table, sales: Table)

  datatype Step<T> = Step(store: Store, out: Result<T>)

  /** The files as the constructor creates them in an empty directory. */
  const Empty := Store(Table([], []), Table([], []), Table([], []))

  /** `t'` is `t` with the record `content` appended on a new last line and
      `(k, slot of that line)` added to the index: the index comes out
      sorted, keeps every old pair, and resolves `k` to the new line. */
  ghost predicate Appended(t: Table, t': Table, k: Key, content: string) {
    && |t'.lines| == |t.lines| + 1
    && t'.lines[..|t.lines|] == t.lines
    && t'.lines[|t.lines|] == Record(content)
    && Sorted(t'.index)
    && multiset(t'.index) == multiset(t.index) + multiset{Entry(k, |t.lines|)}
    && (forall k' :: Lookup(t'.index, k') == if k' == k then Some(|t.lines|) else Lookup(t.index, k'))
  }

  lemma LookupAfterAddAll(idx: Index, k: Key, slot: nat)
    ensures forall k' :: Lookup(Add(idx, k, slot), k') == if k' == k then Some(slot) else Lookup(idx, k')
  {
    forall k' {
      LookupAfterAdd(idx, k, slot, k');
    }
  }

  /** The insert shared by `add_model`, `add_car` and `sell_car`: append the
      padded record, then add `(k, line count - 1)` to the index. */
  function Append(t: Table, k: Key, content: string): (r: Table)
    ensures Appended(t, r, k, content)
  {
    var lines := t.lines + [Record(content)];
    assert lines[..|t.lines|] == t.lines;
    AddShape(t.index, k, |lines| - 1);
    LookupAfterAddAll(t.index, k, |lines| - 1);
    Table(lines, Add(t.index, k, |lines| - 1))
  }

  /** `add_model` */
  function AddModel(st: Store, m: Model): (r: Step<Model>)
    ensures r.out == Ok(m)
    ensures r.store.cars == st.cars && r.store.sales == st.sales
    ensures Appended(st.models, r.store.models, Num(m.id), Join(ModelFields(m)))
  {
    Step(st.(models := Append(st.models, Num(m.id), Join(ModelFields(m)))), Ok(m))
  }

  /** `add_car` */
  function AddCar(st: Store, c: Car): (r: Step<Car>)
    ensures r.out == Ok(c)
    ensures r.store.models == st.models && r.store.sales == st.sales
    ensures Appended(st.cars, r.store.cars, Str(c.vin), Join(CarFields(c)))
  {
    Step(st.(cars := Append(st.cars, Str(c.vin), Join(CarFields(c)))), Ok(c))
  }

  /** `sell_car`: the sale is appended and indexed first; only then is the
      car looked up, its status field set to `sold` and its line rewritten. */
  function SellCar(st: Store, sale: Sale): (r: Step<Car>)
    ensures r.store.models == st.models && r.store.cars.index == st.cars.index
    ensures Appended(st.sales, r.store.sales, Str(sale.salesNumber), Join(SaleFields(sale)))
    ensures r.out == Err(CarNotIndexed) <==> Lookup(st.cars.index, Str(sale.carVin)).None?
    ensures r.out.Err? && r.out.error != Unparsable ==> r.store.cars == st.cars
    ensures |r.store.cars.lines| == |st.cars.lines|
    ensures Lookup(st.cars.index, Str(sale.carVin)).Some? ==>
              var n := Lookup(st.cars.index, Str(sale.carVin)).value;
              forall j :: 0 <= j < |st.cars.lines| && j != n ==> r.store.cars.lines[j] == st.cars.lines[j]
    ensures r.out.Ok? ==> r.out.value.vin == sale.carVin && r.out.value.status == Sold
    ensures Lookup(st.cars.index, Str(sale.carVin)).Some? ==>
              var n := Lookup(st.cars.index, Str(sale.carVin)).value;
              if n < |st.cars.lines| && |Fields(st.cars.lines[n])| >= 5
              then r.out == DecodeCar(sale.carVin, Fields(st.cars.lines[n]), Sold)
              else r.out == Err(IndexOutOfRange)
  {
    var st1 := st.(sales := Append(st.sales, Str(sale.salesNumber), Join(SaleFields(sale))));
    match Lookup(st.cars.index, Str(sale.carVin))
    case None => Step(st1, Err(CarNotIndexed))
    case Some(n) => MarkSold(st1, sale.carVin, n)
  }

  /** The second half of `sell_car`, once the VIN resolved to slot `n`:
      `car_lines[n]` and `parts[4]` raise IndexError on a short file or
      line; otherwise field 4 becomes `sold`, the line is rewritten, and
      the car is built from the old fields. */
  function MarkSold(st: Store, vin: string, n: nat): (r: Step<Car>)
    ensures r.store.models == st.models && r.store.sales == st.sales && r.store.cars.index == st.cars.index
    ensures |r.store.cars.lines| == |st.cars.lines|
    ensures forall j :: 0 <= j < |st.cars.lines| && j != n ==> r.store.cars.lines[j] == st.cars.lines[j]
    ensures r.out.Err? && r.out.error != Unparsable ==> r.store.cars == st.cars
    ensures !(n < |st.cars.lines| && |Fields(st.cars.lines[n])| >= 5) ==> r == Step(st, Err(IndexOutOfRange))
    ensures n < |st.cars.lines| && |Fields(st.cars.lines[n])| >= 5 ==>
              r.out == DecodeCar(vin, Fields(st.cars.lines[n]), Sold)
    ensures r.out.Ok? ==> r.out.value.vin == vin && r.out.value.status == Sold
  {
    if n >= |st.cars.lines| then Step(st, Err(IndexOutOfRange))
    else
      var f := Fields(st.cars.lines[n]);
      if |f| < 5 then Step(st, Err(IndexOutOfRange))
      else
        var line := Record(Join(f[4 := StatusValue(Sold)]));
        Step(st.(cars := st.cars.(lines := st.cars.lines[n := line])), DecodeCar(vin, f, Sold))
  }

  /** `get_cars` keeps a line when it has at least five fields and the fifth,
      stripped, is the status value. */
  predicate HasStatus(line: string, status: CarStatus) {
    var f := Fields(line);
    |f| >= 5 && Strip(f[4]) == StatusValue(status)
  }

  function StatusTest(status: CarStatus): string -> bool {
    (line: string) => HasStatus(line, status)
  }

  /** The lines `get_cars(status)` reports, in file order. */
  function LinesWithStatus(lines: seq<string>, status: CarStatus): seq<string> {
    Filter(lines, StatusTest(status))
  }

  /** The car `get_cars` builds from a kept line: VIN as written, status as
      asked. A kept line always has the fields; the short-line case is the
      `IndexError` any other line would raise. */
  function CarOfLine(status: CarStatus): string -> Result<Car> {
    line =>
      var f := Fields(line);
      if |f| < 4 then Err(IndexOutOfRange) else DecodeCar(f[0], f, status)
  }

  /** `get_cars` */
  function GetCars(st: Store, status: CarStatus): (r: Result<seq<Car>>)
    ensures var kept := LinesWithStatus(st.cars.lines, status);
      && (r.Ok? <==> forall j :: 0 <= j < |kept| ==> CarOfLine(status)(kept[j]).Ok?)
      && (r.Ok? ==> |r.value| == |kept|)
      && (r.Ok? ==> forall j :: 0 <= j < |kept| ==> CarRead(kept[j], status, r.value[j]))
      && (r.Err? ==> r.error == Unparsable)
  {
    var kept := LinesWithStatus(st.cars.lines, status);
    var r := Traverse(kept, CarOfLine(status));
    KeptCars(kept, status, r);
    r
  }

  /** `c` is what a kept line says: its VIN is the first field, its status the
      one asked for, its price the third field's number. */
  predicate CarRead(line: string, status: CarStatus, c: Car) {
    var f := Fields(line);
    && |f| >= 5
    && c.status == status
    && c.vin == f[0]
    && ParseInt(f[1]) == Some(c.model)
    && ParseInt(f[2]) == Some(c.price)
    && c.dateStart == f[3]
  }

  lemma KeptCars(kept: seq<string>, status: CarStatus, r: Result<seq<Car>>)
    requires forall j :: 0 <= j < |kept| ==> HasStatus(kept[j], status)
    requires r == Traverse(kept, CarOfLine(status))
    ensures r.Err? ==> r.error == Unparsable
    ensures r.Ok? ==> forall j :: 0 <= j < |kept| ==> CarRead(kept[j], status, r.value[j])
  {
    if r.Err? {
      var i :| 0 <= i < |kept| && CarOfLine(status)(kept[i]) == Err(r.error);
      CarOfKeptLine(kept[i], status);
    } else {
      forall j | 0 <= j < |kept|
        ensures CarRead(kept[j], status, r.value[j])
      {
        CarOfKeptLine(kept[j], status);
      }
    }
  }

  /** A kept line either reads as a car or fails on a number. */
  lemma CarOfKeptLine(line: string, status: CarStatus)
    requires HasStatus(line, status)
    ensures CarOfLine(status)(line).Err? ==> CarOfLine(status)(line).error == Unparsable
    ensures CarOfLine(status)(line).Ok? ==> CarRead(line, status, CarOfLine(status)(line).value)
  {
  }

  /** The sales line `get_car_info` takes the date and cost from. */
  predicate SaleOf(line: string, vin: string, sale: (string, int)) {
    var f := Fields(line);
    |f| >= 4 && f[1] == vin && f[2] == sale.0 && ParseInt(f[3]) == Some(sale.1)
  }

  /** A sales line the scan passes over: its second field is some other VIN. */
  predicate OtherVin(line: string, vin: string) {
    var f := Fields(line);
    |f| >= 2 && f[1] != vin
  }

  /** `get_car_info`'s scan of `sales.txt`: date and cost of the first line
      whose second field is `vin`. */
  function FirstSale(lines: seq<string>, vin: string): (r: Result<Option<(string, int)>>)
    ensures r.Err? ==> r.error == IndexOutOfRange || r.error == Unparsable
    ensures r == Ok(None) <==> forall i :: 0 <= i < |lines| ==> OtherVin(lines[i], vin)
    ensures r.Ok? && r.value.Some? ==>
              exists i :: 0 <= i < |lines| && SaleOf(lines[i], vin, r.value.value)
                && forall j :: 0 <= j < i ==> OtherVin(lines[j], vin)
  {
    if lines == [] then Ok(None)
    else
      var f := Fields(lines[0]);
      if |f| < 2 then Err(IndexOutOfRange)
      else if f[1] == vin then
        if |f| < 4 then Err(IndexOutOfRange)
        else if ParseInt(f[3]).None? then Err(Unparsable)
        else Ok(Some((f[2], ParseInt(f[3]).value)))
      else
        var r := FirstSale(lines[1..], vin);
        PassOver(lines, vin);
        if r.Ok? && r.value.Some? then
          PassOverTo(lines, vin, r.value.value);
          r
        else
          r
  }

  /** The converse: when every line before line `i` names another car and
      line `i` is a complete sale of `vin` with a cost `int()` reads, the
      scan returns that line's date and cost. */
  lemma {:induction false} FirstSaleFinds(lines: seq<string>, vin: string, i: nat)
    requires i < |lines| && forall j :: 0 <= j < i ==> OtherVin(lines[j], vin)
    requires var f := Fields(lines[i]); |f| >= 4 && f[1] == vin && ParseInt(f[3]).Some?
    ensures var f := Fields(lines[i]);
      FirstSale(lines, vin) == Ok(Some((f[2], ParseInt(f[3]).value)))
    decreases i
  {
    if i > 0 {
      var rest := lines[1..];
      assert OtherVin(lines[0], vin);
      assert forall j :: 0 <= j < i - 1 ==> rest[j] == lines[j + 1];
      assert rest[i - 1] == lines[i];
      FirstSaleFinds(rest, vin, i - 1);
    }
  }

  /** The scan passes over the first line when it names another car: the
      rest all name other cars exactly when the whole file does. */
  lemma PassOver(lines: seq<string>, vin: string)
    requires |lines| >= 1 && OtherVin(lines[0], vin)
    ensures (forall i :: 0 <= i < |lines| - 1 ==> OtherVin(lines[1..][i], vin))
            <==> (forall i :: 0 <= i < |lines| ==> OtherVin(lines[i], vin))
  {
    assert forall i :: 1 <= i < |lines| ==> lines[1..][i - 1] == lines[i];
  }

  /** ... and a first match in the rest is a first match in the file. */
  lemma PassOverTo(lines: seq<string>, vin: string, sale: (string, int))
    requires |lines| >= 1 && OtherVin(lines[0], vin)
    requires exists i :: 0 <= i < |lines| - 1 && SaleOf(lines[1..][i], vin, sale)
               && forall j :: 0 <= j < i ==> OtherVin(lines[1..][j], vin)
    ensures exists i :: 0 <= i < |lines| && SaleOf(lines[i], vin, sale)
              && forall j :: 0 <= j < i ==> OtherVin(lines[j], vin)
  {
    var rest := lines[1..];
    var i :| 0 <= i < |rest| && SaleOf(rest[i], vin, sale) && forall j :: 0 <= j < i ==> OtherVin(rest[j], vin);
    assert forall j :: 1 <= j < |lines| ==> rest[j - 1] == lines[j];
    assert SaleOf(lines[i + 1], vin, sale);
  }

  /** The car line `vin` resolves to, if the index has it and the file is
      long enough. */
  predicate Resolves(t: Table, k: Key) {
    var n := Lookup(t.index, k);
    n.Some? && n.value < |t.lines|
  }

  /** The fields of the line key `k` resolves to in `t`. */
  function ResolvedFields(t: Table, k: Key): seq<string>
    requires Resolves(t, k)
  {
    Fields(t.lines[Lookup(t.index, k).value])
  }

  /** Everything `get_car_info(vin)` reads succeeds: the car line resolves
      and has its five fields, model id, price and status parse, the model
      line resolves and has its three fields, and for a sold car the sales
      scan does not raise. */
  predicate Joins(st: Store, vin: string) {
    && Resolves(st.cars, Str(vin))
    && var f := ResolvedFields(st.cars, Str(vin));
    && |f| >= 5 && ParseInt(f[1]).Some? && ParseInt(f[2]).Some? && ParseStatus(Strip(f[4])).Some?
    && Resolves(st.models, Num(ParseInt(f[1]).value))
    && |ResolvedFields(st.models, Num(ParseInt(f[1]).value))| >= 3
    && (ParseStatus(Strip(f[4])) == Some(Sold) ==> FirstSale(st.sales.lines, vin).Ok?)
  }

  /** `get_car_info` */
  function GetCarInfo(st: Store, vin: string): (r: Result<Option<CarFullInfo>>)
    ensures r.Err? ==> r.error == IndexOutOfRange || r.error == Unparsable || r.error == MissingKey
    ensures r == Ok(None) <==> Lookup(st.cars.index, Str(vin)).None?
    ensures r.Ok? && r.value.Some? <==> Joins(st, vin)
    ensures r.Ok? && r.value.Some? ==>
      && Joins(st, vin)
      && var mp := ResolvedFields(st.models, Num(ParseInt(ResolvedFields(st.cars, Str(vin))[1]).value));
      && r.value.value.carModelName == Strip(mp[1])
      && r.value.value.carModelBrand == Strip(mp[2])
    ensures r.Ok? && r.value.Some? ==>
      && Resolves(st.cars, Str(vin))
      && var f := Fields(st.cars.lines[Lookup(st.cars.index, Str(vin)).value]);
      && var info := r.value.value;
      && |f| >= 5
      && info.vin == vin
      && ParseStatus(Strip(f[4])) == Some(info.status)
      && ParseInt(f[2]) == Some(info.price)
      && info.dateStart == f[3]
      && (info.status != Sold ==> info.salesDate.None? && info.salesCost.None?)
      && (info.status == Sold ==>
            var s := FirstSale(st.sales.lines, vin);
            && s.Ok?
            && (s.value.None? ==> info.salesDate.None? && info.salesCost.None?)
            && (s.value.Some? ==> info.salesDate == Some(s.value.value.0)
                                  && info.salesCost == Some(s.value.value.1)))
  {
    match Lookup(st.cars.index, Str(vin))
    case None => Ok(None)
    case Some(n) =>
      if n >= |st.cars.lines| then Err(IndexOutOfRange)
      else
        var c := Fields(st.cars.lines[n]);
        if |c| < 3 then Err(IndexOutOfRange)
        else if ParseInt(c[2]).None? then Err(Unparsable)
        else if |c| < 5 then Err(IndexOutOfRange)
        else if ParseStatus(Strip(c[4])).None? then Err(Unparsable)
        else if ParseInt(c[1]).None? then Err(Unparsable)
        else
          var price, status, modelId := ParseInt(c[2]).value, ParseStatus(Strip(c[4])).value, ParseInt(c[1]).value;
          match Lookup(st.models.index, Num(modelId))
          case None => Err(MissingKey)
          case Some(mn) =>
            if mn >= |st.models.lines| then Err(IndexOutOfRange)
            else
              var mp := Fields(st.models.lines[mn]);
              if |mp| < 3 then Err(IndexOutOfRange)
              else
                var sale := if status == Sold then FirstSale(st.sales.lines, vin) else Ok(None);
                match sale
                case Err(e) => Err(e)
                case Ok(s) =>
                  var date := if s.Some? then Some(s.value.0) else None;
                  var cost := if s.Some? then Some(s.value.1) else None;
                  Ok(Some(CarFullInfo(vin, Strip(mp[1]), Strip(mp[2]), price, c[3], status, date, cost)))
  }

  /** `update_vin`: rename the index pairs and rewrite the index first; only
      then fail if the VIN was absent, else rewrite the car's line with the
      new VIN in the first field and the status field stripped. */
  function UpdateVin(st: Store, vin: string, newVin: string): (r: Step<Car>)
    ensures r.store.models == st.models && r.store.sales == st.sales
    ensures Sorted(r.store.cars.index)
    ensures multiset(r.store.cars.index) == multiset(Rekey(st.cars.index, Str(vin), Str(newVin)))
    ensures forall k :: Lookup(r.store.cars.index, k) == Lookup(Rekey(st.cars.index, Str(vin), Str(newVin)), k)
    ensures r.out == Err(VinNotFound) <==> Lookup(st.cars.index, Str(vin)).None?
    ensures r.out.Err? && r.out.error != Unparsable ==> r.store.cars.lines == st.cars.lines
    ensures |r.store.cars.lines| == |st.cars.lines|
    ensures forall j :: 0 <= j < |st.cars.lines| && Lookup(st.cars.index, Str(vin)) != Some(j)
              ==> r.store.cars.lines[j] == st.cars.lines[j]
    ensures r.out.Ok? ==> r.out.value.vin == newVin
    ensures (Lookup(st.cars.index, Str(vin)).Some? && !(Resolves(st.cars, Str(vin)) && |ResolvedFields(st.cars, Str(vin))| >= 5))
              ==> r.out == Err(IndexOutOfRange)
    ensures Resolves(st.cars, Str(vin)) && |ResolvedFields(st.cars, Str(vin))| >= 5 ==>
              var f := ResolvedFields(st.cars, Str(vin));
              && (r.out.Ok? <==> ParseStatus(Strip(f[4])).Some? && ParseInt(f[1]).Some? && ParseInt(f[2]).Some?)
              && (r.out.Ok? ==> r.out == DecodeCar(newVin, f, ParseStatus(Strip(f[4])).value))
  {
    var renamed := Rekey(st.cars.index, Str(vin), Str(newVin));
    EntryOrder();
    SortSorted(renamed, EntryLe);
    LookupAfterSortAll(renamed);
    var st1 := st.(cars := st.cars.(index := Sort(renamed, EntryLe)));
    match Lookup(st.cars.index, Str(vin))
    case None => Step(st1, Err(VinNotFound))
    case Some(n) =>
      if n >= |st.cars.lines| then Step(st1, Err(IndexOutOfRange))
      else
        var f := Fields(st.cars.lines[n]);
        if |f| < 5 then Step(st1, Err(IndexOutOfRange))
        else
          var g := f[0 := newVin][4 := Strip(f[4])];
          var st2 := st1.(cars := st1.cars.(lines := st.cars.lines[n := Record(Join(g))]));
          match ParseStatus(g[4])
          case None => Step(st2, Err(Unparsable))
          case Some(status) => Step(st2, DecodeCar(newVin, g, status))
  }

  lemma LookupAfterSortAll(idx: Index)
    ensures forall k :: Lookup(Sort(idx, EntryLe), k) == Lookup(idx, k)
  {
    forall k {
      LookupAfterSort(idx, k);
    }
  }

  /** A sales line whose first field is the sale number `sn`. */
  predicate NumberedAs(line: string, sn: string) {
    Fields(line)[0] == sn
  }

  /** The lines `revert_sale` writes back to `sales.txt`, in order. */
  function KeptSales(lines: seq<string>, sn: string): seq<string> {
    Filter(lines, OtherNumber(sn))
  }

  function OtherNumber(sn: string): string -> bool {
    (line: string) => !NumberedAs(line, sn)
  }

  /** A sales line numbered `sn` whose VIN field is missing. */
  predicate Truncated(line: string, sn: string) {
    NumberedAs(line, sn) && |Fields(line)| < 2
  }

  /** `removed_vin` after `revert_sale`'s loop: each line numbered `sn`
      overwrites it with its second field, so the last one wins; a numbered
      line without a second field raises. */
  function RemovedVin(lines: seq<string>, sn: string): (r: Result<Option<string>>)
    ensures r.Err? <==> exists i :: 0 <= i < |lines| && Truncated(lines[i], sn)
    ensures r.Err? ==> r.error == IndexOutOfRange
    ensures r.Ok? ==> (r.value.None? <==> forall i :: 0 <= i < |lines| ==> !NumberedAs(lines[i], sn))
    ensures r.Ok? && r.value.Some? ==>
              exists i :: 0 <= i < |lines| && NumberedAs(lines[i], sn)
                && |Fields(lines[i])| >= 2 && Fields(lines[i])[1] == r.value.value
                && forall j :: i < j < |lines| ==> !NumberedAs(lines[j], sn)
  {
    if lines == [] then Ok(None)
    else
      var init, last := lines[..|lines| - 1], lines[|lines| - 1];
      ScanStep(lines, sn);
      match RemovedVin(init, sn)
      case Err(e) => Err(e)
      case Ok(found) =>
        var p := Fields(last);
        if !NumberedAs(last, sn) then
          if found.Some? then
            ScanStepSkips(lines, sn, found.value);
            Ok(found)
          else
            Ok(found)
        else if |p| < 2 then Err(IndexOutOfRange)
        else Ok(Some(p[1]))
  }

  /** One more line for `revert_sale`'s loop: it has a truncated numbered
      line, or has no numbered line, exactly when the lines before it do and
      the new one is (is not) such a line. */
  lemma ScanStep(lines: seq<string>, sn: string)
    requires lines != []
    ensures var init, last := lines[..|lines| - 1], lines[|lines| - 1];
      && ((exists i :: 0 <= i < |lines| && Truncated(lines[i], sn))
          <==> (exists i :: 0 <= i < |init| && Truncated(init[i], sn)) || Truncated(last, sn))
      && ((forall i :: 0 <= i < |lines| ==> !NumberedAs(lines[i], sn))
          <==> (forall i :: 0 <= i < |init| ==> !NumberedAs(init[i], sn)) && !NumberedAs(last, sn))
  {
    var init := lines[..|lines| - 1];
    assert forall i :: 0 <= i < |init| ==> init[i] == lines[i];
    assert lines == init + [lines[|lines| - 1]];
  }

  /** ... and a last numbered line before it stays the last one when the new
      line is not numbered. */
  lemma ScanStepSkips(lines: seq<string>, sn: string, vin: string)
    requires lines != [] && !NumberedAs(lines[|lines| - 1], sn)
    requires var init := lines[..|lines| - 1];
      exists i :: 0 <= i < |init| && NumberedAs(init[i], sn)
        && |Fields(init[i])| >= 2 && Fields(init[i])[1] == vin
        && forall j :: i < j < |init| ==> !NumberedAs(init[j], sn)
    ensures exists i :: 0 <= i < |lines| && NumberedAs(lines[i], sn)
              && |Fields(lines[i])| >= 2 && Fields(lines[i])[1] == vin
              && forall j :: i < j < |lines| ==> !NumberedAs(lines[j], sn)
  {
    var init := lines[..|lines| - 1];
    var i :| 0 <= i < |init| && NumberedAs(init[i], sn)
               && |Fields(init[i])| >= 2 && Fields(init[i])[1] == vin
               && forall j :: i < j < |init| ==> !NumberedAs(init[j], sn);
    assert forall j :: 0 <= j < |init| ==> init[j] == lines[j];
    assert lines[i] == init[i];
  }

  /** `revert_sale`: drop the sale's lines and index pairs and rewrite both
      files (the remaining pairs keep their old slot numbers); only then fail
      if there was no such sale, else hand over to `RestoreCar`. Returns
      nothing useful. */
  function RevertSale(st: Store, sn: string): (r: Step<()>)
    ensures r.store.models == st.models && r.store.cars.index == st.cars.index
    ensures RemovedVin(st.sales.lines, sn).Err? ==> r.store == st && r.out == Err(IndexOutOfRange)
    ensures RemovedVin(st.sales.lines, sn).Ok? ==>
              && r.store.sales.lines == KeptSales(st.sales.lines, sn)
              && Sorted(r.store.sales.index)
              && multiset(r.store.sales.index) == multiset(Remove(st.sales.index, Str(sn)))
              && (forall k :: Lookup(r.store.sales.index, k) == Lookup(Remove(st.sales.index, Str(sn)), k))
              && (Sorted(st.sales.index) ==> r.store.sales.index == Remove(st.sales.index, Str(sn)))
    ensures r.out == Err(SaleNotFound) <==> RemovedVin(st.sales.lines, sn) == Ok(None)
    ensures |r.store.cars.lines| == |st.cars.lines|
    ensures r.out.Ok? ==>
              && RemovedVin(st.sales.lines, sn).Ok? && RemovedVin(st.sales.lines, sn).value.Some?
              && var vin := RemovedVin(st.sales.lines, sn).value.value;
              && Resolves(st.cars, Str(vin))
              && var n := Lookup(st.cars.index, Str(vin)).value;
              && (forall j :: 0 <= j < |st.cars.lines| && j != n ==> r.store.cars.lines[j] == st.cars.lines[j])
              && HasStatus(r.store.cars.lines[n], Available)
    ensures r.out.Err? ==> r.store.cars == st.cars
    ensures var rv := RemovedVin(st.sales.lines, sn);
      && (r.out == Err(CarInfoNotFound) <==> rv.Ok? && rv.value.Some? && Lookup(st.cars.index, Str(rv.value.value)).None?)
      && (r.out.Ok? <==> rv.Ok? && rv.value.Some? && Joins(st.(sales := r.store.sales), rv.value.value))
      && (rv.Ok? && rv.value.Some? && GetCarInfo(st.(sales := r.store.sales), rv.value.value).Err? ==>
            r.out == Err(GetCarInfo(st.(sales := r.store.sales), rv.value.value).error))
  {
    match RemovedVin(st.sales.lines, sn)
    case Err(e) => Step(st, Err(e))
    case Ok(removed) =>
      var st1 := st.(sales := DropSale(st.sales, sn));
      match removed
      case None => Step(st1, Err(SaleNotFound))
      case Some(vin) => RestoreCar(st1, vin)
  }

  /** The first half of `revert_sale` once its scan succeeded: `sales.txt`
      keeps the lines with another number, in order, and the index holds the
      other pairs, sorted again, without renumbering any slot: every key
      resolves as it does once the number's pairs are dropped. */
  function DropSale(t: Table, sn: string): (r: Table)
    ensures r.lines == KeptSales(t.lines, sn)
    ensures Sorted(r.index)
    ensures multiset(r.index) == multiset(Remove(t.index, Str(sn)))
    ensures forall k :: Lookup(r.index, k) == Lookup(Remove(t.index, Str(sn)), k)
    ensures Sorted(t.index) ==> r.index == Remove(t.index, Str(sn))
  {
    RemoveThenSort(t.index, Str(sn));
    forall k ensures Lookup(Sort(Remove(t.index, Str(sn)), EntryLe), k) == Lookup(Remove(t.index, Str(sn)), k) {
      LookupAfterSort(Remove(t.index, Str(sn)), k);
    }
    Table(KeptSales(t.lines, sn), Sort(Remove(t.index, Str(sn)), EntryLe))
  }

  /** The second half of `revert_sale`: `get_car_info` on the sale's VIN;
      fail when it raises or finds nothing, else set the car line's status
      field to `available` and rewrite `cars.txt`. */
  function RestoreCar(st: Store, vin: string): (r: Step<()>)
    ensures r.store.models == st.models && r.store.sales == st.sales && r.store.cars.index == st.cars.index
    ensures |r.store.cars.lines| == |st.cars.lines|
    ensures r.out.Err? ==> r.store.cars == st.cars
    ensures r.out == Err(CarInfoNotFound) <==> Lookup(st.cars.index, Str(vin)).None?
    ensures r.out.Ok? <==> Joins(st, vin)
    ensures GetCarInfo(st, vin).Err? ==> r.out == Err(GetCarInfo(st, vin).error)
    ensures r.out.Ok? ==>
              && Resolves(st.cars, Str(vin))
              && var n := Lookup(st.cars.index, Str(vin)).value;
              && (forall j :: 0 <= j < |st.cars.lines| && j != n ==> r.store.cars.lines[j] == st.cars.lines[j])
              && HasStatus(r.store.cars.lines[n], Available)
  {
    match GetCarInfo(st, vin)
    case Err(e) => Step(st, Err(e))
    case Ok(None) => Step(st, Err(CarInfoNotFound))
    case Ok(Some(_)) =>
      var n := Lookup(st.cars.index, Str(vin)).value;
      var f := Fields(st.cars.lines[n]);
      var lines := st.cars.lines[n := Record(Join(f[4 := StatusValue(Available)]))];
      MarkAvailable(st.cars.lines, n);
      Step(st.(cars := st.cars.(lines := lines)), Ok(()))
  }

  /** Setting line `n`'s status field to `available` and writing it back:
      that line then has the status, and no other line changes. */
  lemma MarkAvailable(lines: seq<string>, n: nat)
    requires n < |lines| && |Fields(lines[n])| >= 5
    ensures var l := lines[n := Record(Join(Fields(lines[n])[4 := StatusValue(Available)]))];
      && |l| == |lines|
      && HasStatus(l[n], Available)
      && forall j :: 0 <= j < |lines| && j != n ==> l[j] == lines[j]
  {
    FieldsEncodable(lines[n]);
    StatusRewrite(Fields(lines[n]), Available);
  }

  lemma StatusRewrite(f: seq<string>, s: CarStatus)
    requires |f| >= 5 && Encodable(f)
    ensures HasStatus(Record(Join(f[4 := StatusValue(s)])), s)
  {
    var g := f[4 := StatusValue(s)];
    StatusValueShape(s);
    assert Encodable(g);
    RecordFields(g);
    var pad := Spaces(PadLength(Join(g)));
    if |g| == 5 {
      StripPadded(StatusValue(s), pad);
    }
  }
}

=== FILE: numbers.dfy ===
/** Integers as the service writes them (`f"{n}"`) and reads them
    (`int(field)`, and `Decimal(field)` for whole-number prices). */
module Numbers {
  import opened Results
  import opened Text

  predicate IsDigit(c: char) {
    '0' <= c <= '9'
  }

  predicate AllDigits(s: string) {
    forall i :: 0 <= i < |s| ==> IsDigit(s[i])
  }

  function DigitChar(d: nat): (c: char)
    requires d < 10
    ensures IsDigit(c) && c as int - '0' as int == d
  {
    ('0' as int + d) as char
  }

  /** Decimal digits of `n`, most significant first, without leading zeros. */
  function Digits(n: nat): (r: string)
    ensures |r| >= 1 && AllDigits(r)
    ensures r[0] != '0' || n == 0
    decreases n
  {
    if n < 10 then [DigitChar(n)] else Digits(n / 10) + [DigitChar(n % 10)]
  }

  /** Value of a string of decimal digits. */
  function DigitsValue(s: string): nat
    requires AllDigits(s)
  {
    if s == [] then 0
    else DigitsValue(s[..|s| - 1]) * 10 + (s[|s| - 1] as int - '0' as int)
  }

  lemma {:induction false} DigitsRoundTrip(n: nat)
    ensures DigitsValue(Digits(n)) == n
    decreases n
  {
    if n >= 10 {
      DigitsRoundTrip(n / 10);
      var d := Digits(n);
      assert d[..|d| - 1] == Digits(n / 10);
    }
  }

  /** `f"{i}"` (and `str` of a whole-number Decimal). */
  function IntToString(i: int): (r: string)
    ensures |r| >= 1 && IsDigit(r[|r| - 1])
    ensures r[0] == '-' <==> i < 0
  {
    if i < 0 then "-" + Digits(-i) else Digits(i)
  }

  /** `int(s)`: surrounding whitespace is ignored, an optional sign, then at
      least one decimal digit; anything else is rejected. */
  function ParseInt(s: string): Option<int>
  {
    ParseDigits(Strip(s))
  }

  /** `int(t)` for a `t` without surrounding whitespace. */
  function ParseDigits(t: string): Option<int> {
    if |t| == 0 then None
    else
      var negative := t[0] == '-';
      var body := if t[0] == '-' || t[0] == '+' then t[1..] else t;
      if |body| == 0 || !AllDigits(body) then None
      else
        var magnitude: int := DigitsValue(body);
        Some(if negative then -magnitude else magnitude)
  }

  /** Reading back a written integer, with any padding after it, gives the
      integer. */
  lemma ParseIntToString(i: int, pad: string)
    requires forall k :: 0 <= k < |pad| ==> IsSpace(pad[k])
    ensures ParseInt(IntToString(i) + pad) == Some(i)
  {
    var w := IntToString(i);
    assert !IsSpace(w[0]) by {
      if i < 0 { assert w[0] == '-'; } else { assert IsDigit(w[0]); }
    }
    assert !IsSpace(w[|w| - 1]) by { assert IsDigit(w[|w| - 1]); }
    StripPadded(w, pad);
    ParseIntOfWritten(i);
  }

  lemma ParseIntOfWritten(i: int)
    ensures ParseDigits(IntToString(i)) == Some(i)
  {
    var t := IntToString(i);
    if i < 0 {
      var d := Digits(-i);
      assert t == "-" + d;
      assert t[1..] == d;
      DigitsRoundTrip(-i);
    } else {
      var d := Digits(i);
      assert t == d;
      assert t[0] != '-' && t[0] != '+' by { assert IsDigit(d[0]); }
      DigitsRoundTrip(i);
    }
  }

  lemma ParseIntToStringExact(i: int)
    ensures ParseInt(IntToString(i)) == Some(i)
  {
    ParseIntToString(i, "");
    assert IntToString(i) + "" == IntToString(i);
  }
}

=== FILE: records.dfy ===
/** The rows of the three tables and how each is laid out on its line:
    `id;name;brand`, `vin;model;price;date_start;status` and
    `sales_number;car_vin;sales_date;cost`. Dates are kept as the text
    `isoformat()` writes; prices and costs are whole numbers. */
module Records {
  import opened Results
  import opened Text
  import opened Numbers

  datatype CarStatus = Available | Reserved | Sold

  /** `status.value` */
  function StatusValue(s: CarStatus): string {
    match s
    case Available => "available"
    case Reserved => "reserved"
    case Sold => "sold"
  }

  /** `CarStatus(v)`: the status whose value is exactly `v`, if any. */
  function ParseStatus(v: string): (r: Option<CarStatus>)
    ensures forall s :: r == Some(s) <==> StatusValue(s) == v
  {
    if v == "available" then Some(Available)
    else if v == "reserved" then Some(Reserved)
    else if v == "sold" then Some(Sold)
    else None
  }

  datatype Model = Model(id: int, name: string, brand: string)

  datatype Car = Car(vin: string, model: int, price: int, dateStart: string, status: CarStatus)

  datatype Sale = Sale(salesNumber: string, carVin: string, salesDate: string, cost: int)

  /** The join `get_car_info` builds; sale date and cost only for sold cars. */
  datatype CarFullInfo = CarFullInfo(
    vin: string,
    carModelName: string,
    carModelBrand: string,
    price: int,
    dateStart: string,
    status: CarStatus,
    salesDate: Option<string>,
    salesCost: Option<int>)

  /** One row of `top_models_by_sales`. */
  datatype ModelSaleStats = ModelSaleStats(carModelName: string, brand: string, salesNumber: nat)

  function ModelFields(m: Model): seq<string> {
    [IntToString(m.id), m.name, m.brand]
  }

  function CarFields(c: Car): seq<string> {
    [c.vin, IntToString(c.model), IntToString(c.price), c.dateStart, StatusValue(c.status)]
  }

  function SaleFields(s: Sale): seq<string> {
    [s.salesNumber, s.carVin, s.salesDate, IntToString(s.cost)]
  }

  /** Text fields that survive the line layout: no separator inside; the
      last field of a line also must not end in a line terminator. */
  predicate PlainModel(m: Model) {
    ';' !in m.name && ';' !in m.brand && !EndsWithNewline(m.brand)
  }

  predicate PlainCar(c: Car) {
    ';' !in c.vin && ';' !in c.dateStart
  }

  predicate PlainSale(s: Sale) {
    ';' !in s.salesNumber && ';' !in s.carVin && ';' !in s.salesDate
  }

  /** `Car(vin=vin, model=int(f[1]), price=Decimal(f[2]),
      date_start=datetime.fromisoformat(f[3]), status=status)`. */
  function DecodeCar(vin: string, f: seq<string>, status: CarStatus): (r: Result<Car>)
    requires |f| >= 4
    ensures r.Ok? <==> ParseInt(f[1]).Some? && ParseInt(f[2]).Some?
    ensures r.Err? ==> r.error == Unparsable
    ensures r.Ok? ==> r.value.vin == vin && r.value.status == status && r.value.dateStart == f[3]
    ensures r.Ok? ==> ParseInt(f[1]) == Some(r.value.model) && ParseInt(f[2]) == Some(r.value.price)
  {
    match ParseInt(f[1])
    case None => Err(Unparsable)
    case Some(model) =>
      match ParseInt(f[2])
      case None => Err(Unparsable)
      case Some(price) => Ok(Car(vin, model, price, f[3], status))
  }

  lemma IntToStringPlain(i: int)
    ensures ';' !in IntToString(i) && !EndsWithNewline(IntToString(i))
  {
    var w := IntToString(i);
    if i < 0 {
      assert w[1..] == Digits(-i);
      assert forall k :: 1 <= k < |w| ==> IsDigit(w[k]) by {
        forall k | 1 <= k < |w| ensures IsDigit(w[k]) { assert w[k] == w[1..][k - 1]; }
      }
    }
  }

  lemma StatusValueShape(s: CarStatus)
    ensures |StatusValue(s)| > 0
    ensures !IsSpace(StatusValue(s)[0]) && !IsSpace(StatusValue(s)[|StatusValue(s)| - 1])
    ensures ';' !in StatusValue(s) && !EndsWithNewline(StatusValue(s))
  {
  }

  /** A written car line reads back as the car: five fields, the VIN first,
      the status (after `strip()`) last, and the numbers parse back. */
  lemma CarLineRoundTrip(c: Car)
    requires PlainCar(c)
    ensures var f := Fields(Record(Join(CarFields(c))));
      && |f| == 5
      && f[0] == c.vin
      && Strip(f[4]) == StatusValue(c.status)
      && DecodeCar(c.vin, f, c.status) == Ok(c)
  {
    var parts := CarFields(c);
    IntToStringPlain(c.model);
    IntToStringPlain(c.price);
    StatusValueShape(c.status);
    assert Encodable(parts);
    RecordFields(parts);
    var f := Fields(Record(Join(parts)));
    var pad := Spaces(PadLength(Join(parts)));
    assert f[4] == StatusValue(c.status) + pad;
    StripPadded(StatusValue(c.status), pad);
    ParseIntToStringExact(c.model);
    ParseIntToStringExact(c.price);
  }

  /** A written model line reads back as the model's name and brand, as
      `strip()` leaves them. */
  lemma ModelLineRoundTrip(m: Model)
    requires PlainModel(m)
    ensures var f := Fields(Record(Join(ModelFields(m))));
      && |f| == 3
      && ParseInt(f[0]) == Some(m.id)
      && Strip(f[1]) == Strip(m.name)
      && Strip(f[2]) == Strip(m.brand)
  {
    var parts := ModelFields(m);
    IntToStringPlain(m.id);
    assert Encodable(parts);
    RecordFields(parts);
    var pad := Spaces(PadLength(Join(parts)));
    StripIgnoresPadding(m.brand, pad);
    ParseIntToStringExact(m.id);
  }

  /** A written sale line reads back as the sale: its number, its VIN, its
      date and, through the padding, its cost. */
  lemma SaleLineRoundTrip(s: Sale)
    requires PlainSale(s)
    ensures var f := Fields(Record(Join(SaleFields(s))));
      && |f| == 4
      && f[0] == s.salesNumber
      && f[1] == s.carVin
      && f[2] == s.salesDate
      && ParseInt(f[3]) == Some(s.cost)
  {
    var parts := SaleFields(s);
    IntToStringPlain(s.cost);
    assert Encodable(parts);
    RecordFields(parts);
    var pad := Spaces(PadLength(Join(parts)));
    ParseIntToString(s.cost, pad);
  }
}

=== FILE: results.dfy ===
/** Failure-carrying values shared by every part of the store. */
module Results {

  datatype Option<+T> = None | Some(value: T)

  /** What the service raises. The first four are the `ValueError`s the service
      raises itself; the last three are the exceptions Python raises on its own
      when a line, a key or a field is not what the code expects. */
  datatype Error =
    | CarNotIndexed     // sell_car: the sale's VIN has no entry in the cars index
    | VinNotFound       // update_vin: the VIN has no entry in the cars index
    | SaleNotFound      // revert_sale: no sales line carries the sales number
    | CarInfoNotFound   // revert_sale: get_car_info found no car for the sale's VIN
    | IndexOutOfRange   // IndexError: a slot past the end of a file, or a missing field
    | MissingKey        // KeyError: a dict built from an index has no entry for the key
    | Unparsable        // ValueError from int() or CarStatus(), decimal.InvalidOperation from Decimal(): a field did not parse

  datatype Result<+T> = Ok(value: T) | Err(error: Error) {
    predicate IsFailure() { Err? }

    function PropagateFailure<U>(): Result<U>
      requires Err?
    {
      Err(error)
    }

    function Extract(): T
      requires Ok?
    {
      value
    }
  }
}

=== FILE: scans.dfy ===
/** The two loop shapes the service's readers use over the lines of a file:
    keep the lines a test accepts, and build one value per line where any
    failure aborts the whole loop. Both are left folds, like the `for`
    loops they model: the last element is the one processed last. */
module Scans {
  import opened Results

  /** `[x for x in s if keep(x)]` */
  function Filter<T(!new)>(s: seq<T>, keep: T -> bool): (r: seq<T>)
    ensures |r| <= |s|
    ensures forall x :: x in r <==> x in s && keep(x)
    ensures forall j :: 0 <= j < |r| ==> keep(r[j])
  {
    if s == [] then []
    else
      var init, last := s[..|s| - 1], s[|s| - 1];
      assert s == init + [last];
      Filter(init, keep) + (if keep(last) then [last] else [])
  }

  /** `[make(x) for x in s]` where `make` may raise: the first failure, in
      order, is what the whole loop raises. */
  function Traverse<T, U>(s: seq<T>, make: T -> Result<U>): (r: Result<seq<U>>)
    ensures r.Ok? <==> forall i :: 0 <= i < |s| ==> make(s[i]).Ok?
    ensures r.Ok? ==> |r.value| == |s| && forall i :: 0 <= i < |s| ==> make(s[i]) == Ok(r.value[i])
    ensures r.Err? ==> exists i :: 0 <= i < |s| && make(s[i]) == Err(r.error)
                         && forall j :: 0 <= j < i ==> make(s[j]).Ok?
  {
    if s == [] then Ok([])
    else
      var init, last := s[..|s| - 1], s[|s| - 1];
      assert forall i :: 0 <= i < |init| ==> init[i] == s[i];
      match Traverse(init, make)
      case Err(e) => Err(e)
      case Ok(us) =>
        match make(last)
        case Err(e) => Err(e)
        case Ok(u) => Ok(us + [u])
  }

  /** A filter over a longer list keeps what it kept and looks at the new
      element. */
  lemma FilterAppend<T(!new)>(s: seq<T>, x: T, keep: T -> bool)
    ensures Filter(s + [x], keep) == Filter(s, keep) + (if keep(x) then [x] else [])
  {
    assert (s + [x])[..|s|] == s;
  }

  /** Traversing a longer list: an earlier failure stays the failure;
      otherwise the old result is extended by the new value. */
  lemma TraverseAppend<T, U>(s: seq<T>, x: T, make: T -> Result<U>)
    ensures Traverse(s, make).Err? ==> Traverse(s + [x], make) == Traverse(s, make)
    ensures Traverse(s, make).Ok? && make(x).Ok? ==>
              Traverse(s + [x], make) == Ok(Traverse(s, make).value + [make(x).value])
  {
    assert (s + [x])[..|s|] == s;
  }

  /** A filter keeps each accepted element as often as the input holds it,
      and no other. */
  lemma {:induction false} FilterCounts<T(!new)>(s: seq<T>, keep: T -> bool, x: T)
    ensures multiset(Filter(s, keep))[x] == if keep(x) then multiset(s)[x] else 0
    decreases |s|
  {
    if s != [] {
      var init, last := s[..|s| - 1], s[|s| - 1];
      assert s == init + [last];
      FilterCounts(init, keep, x);
    }
  }

  /** Filtering two pieces filters each and keeps them in order: so the kept
      elements appear in the order, and as often, as they do in the input. */
  lemma {:induction false} FilterConcat<T(!new)>(a: seq<T>, b: seq<T>, keep: T -> bool)
    ensures Filter(a + b, keep) == Filter(a, keep) + Filter(b, keep)
    decreases |b|
  {
    if b == [] {
      assert a + b == a;
    } else {
      var init, last := b[..|b| - 1], b[|b| - 1];
      assert a + b == (a + init) + [last];
      FilterAppend(a + init, last, keep);
      FilterConcat(a, init, keep);
      FilterAppend(init, last, keep);
      assert b == init + [last];
    }
  }

  /** A filter that keeps everything changes nothing. */
  lemma {:induction false} FilterAll<T(!new)>(s: seq<T>, keep: T -> bool)
    requires forall i :: 0 <= i < |s| ==> keep(s[i])
    ensures Filter(s, keep) == s
    decreases |s|
  {
    if s != [] {
      FilterAll(s[..|s| - 1], keep);
    }
  }
}

=== FILE: service_properties.dfy ===
/** Properties that relate several operations of the service: what one
    method writes, another reads back. */
module ServiceProperties {
  import opened Results
  import opened Text
  import opened Numbers
  import opened StableSort
  import opened SortedIndex
  import opened Records
  import opened Scans
  import opened CarService

  /** The fields of `line` are `h` with the writer's padding on the last
      one: every other field is exactly as in `h`. */
  predicate ReadsAs(line: string, h: seq<string>) {
    var g := Fields(line);
    && |g| == |h| >= 1
    && (forall i :: 0 <= i < |h| - 1 ==> g[i] == h[i])
    && PaddedFrom(g[|h| - 1], h[|h| - 1])
  }

  /** Rewriting a line with one field replaced (`parts[k] = v`, then
      `";".join(parts).ljust(500) + "\n"`) changes that field and nothing
      else a reader sees, apart from padding on the last field. */
  lemma ReplaceField(line: string, k: nat, v: string)
    requires k < |Fields(line)|
    requires ';' !in v && (k == |Fields(line)| - 1 ==> !EndsWithNewline(v))
    ensures ReadsAs(Record(Join(Fields(line)[k := v])), Fields(line)[k := v])
  {
    FieldsEncodable(line);
    WrittenReadsAs(Fields(line)[k := v]);
  }

  /** A line written from fields that fit the layout reads back as them. */
  lemma WrittenReadsAs(h: seq<string>)
    requires Encodable(h)
    ensures ReadsAs(Record(Join(h)), h)
  {
    RecordFields(h);
  }

  /** `sell_car` rewrites the indexed car line with field 4 set to `sold`,
      keeps every other field, and returns the car read from the old fields. */
  lemma SellCarMarksSold(st: Store, sale: Sale)
    requires Resolves(st.cars, Str(sale.carVin))
    requires |Fields(st.cars.lines[Lookup(st.cars.index, Str(sale.carVin)).value])| >= 5
    ensures var n := Lookup(st.cars.index, Str(sale.carVin)).value;
      var f := Fields(st.cars.lines[n]);
      var r := SellCar(st, sale);
      && ReadsAs(r.store.cars.lines[n], f[4 := "sold"])
      && HasStatus(r.store.cars.lines[n], Sold)
      && r.out == DecodeCar(sale.carVin, f, Sold)
  {
    var n := Lookup(st.cars.index, Str(sale.carVin)).value;
    var f := Fields(st.cars.lines[n]);
    SellCarRewrites(st, sale);
    SellCarOut(st, sale);
    MarkedStatus(st.cars.lines[n], Sold);
  }

  lemma SellCarOut(st: Store, sale: Sale)
    requires Resolves(st.cars, Str(sale.carVin))
    requires |Fields(st.cars.lines[Lookup(st.cars.index, Str(sale.carVin)).value])| >= 5
    ensures var f := Fields(st.cars.lines[Lookup(st.cars.index, Str(sale.carVin)).value]);
      SellCar(st, sale).out == DecodeCar(sale.carVin, f, Sold)
  {
  }

  /** A car line with field 4 set to a status value and written back. */
  lemma MarkedStatus(line: string, status: CarStatus)
    requires |Fields(line)| >= 5
    ensures var f := Fields(line);
      var marked := Record(Join(f[4 := StatusValue(status)]));
      ReadsAs(marked, f[4 := StatusValue(status)]) && HasStatus(marked, status)
  {
    ReplaceField(line, 4, StatusValue(status));
    FieldsEncodable(line);
    StatusRewrite(Fields(line), status);
  }

  /** `update_vin` rewrites the indexed line with the new VIN as field 0 and
      field 4 stripped, every other field as it was. */
  lemma UpdateVinRewritesLine(st: Store, vin: string, newVin: string)
    requires Resolves(st.cars, Str(vin))
    requires |Fields(st.cars.lines[Lookup(st.cars.index, Str(vin)).value])| >= 5
    requires ';' !in newVin
    ensures var n := Lookup(st.cars.index, Str(vin)).value;
      var f := Fields(st.cars.lines[n]);
      ReadsAs(UpdateVin(st, vin, newVin).store.cars.lines[n], f[0 := newVin][4 := Strip(f[4])])
  {
    var n := Lookup(st.cars.index, Str(vin)).value;
    var f := Fields(st.cars.lines[n]);
    UpdateVinRewrites(st, vin, newVin);
    FieldsEncodable(st.cars.lines[n]);
    RenamedEncodable(f, newVin);
    WrittenReadsAs(f[0 := newVin][4 := Strip(f[4])]);
  }

  lemma UpdateVinRewrites(st: Store, vin: string, newVin: string)
    requires Resolves(st.cars, Str(vin))
    requires |Fields(st.cars.lines[Lookup(st.cars.index, Str(vin)).value])| >= 5
    ensures var n := Lookup(st.cars.index, Str(vin)).value;
      var f := Fields(st.cars.lines[n]);
      UpdateVin(st, vin, newVin).store.cars.lines == st.cars.lines[n := Record(Join(f[0 := newVin][4 := Strip(f[4])]))]
  {
  }

  /** The fields `update_vin` writes still fit the line layout. */
  lemma RenamedEncodable(f: seq<string>, newVin: string)
    requires Encodable(f) && |f| >= 5 && ';' !in newVin
    ensures Encodable(f[0 := newVin][4 := Strip(f[4])])
  {
    var g := f[0 := newVin][4 := Strip(f[4])];
    StripPlain(f[4]);
    forall i | 0 <= i < |g|
      ensures ';' !in g[i]
    {
      if i != 0 && i != 4 { assert g[i] == f[i]; }
    }
  }

  /** After `update_vin` to a different VIN, `get_car_info` no longer knows
      the old one. */
  lemma UpdateVinForgetsOld(st: Store, vin: string, newVin: string)
    requires vin != newVin
    ensures GetCarInfo(UpdateVin(st, vin, newVin).store, vin) == Ok(None)
  {
    LookupAfterRekey(st.cars.index, Str(vin), Str(newVin), Str(vin));
  }

  /** After `update_vin` of an indexed VIN, the new VIN is indexed; when the
      index did not hold the new VIN, it resolves to the renamed car's line. */
  lemma UpdateVinIndexesNew(st: Store, vin: string, newVin: string)
    requires Lookup(st.cars.index, Str(vin)).Some?
    ensures Lookup(UpdateVin(st, vin, newVin).store.cars.index, Str(newVin)).Some?
    ensures (forall i :: 0 <= i < |st.cars.index| ==> st.cars.index[i].key != Str(newVin)) ==>
              Lookup(UpdateVin(st, vin, newVin).store.cars.index, Str(newVin)) == Lookup(st.cars.index, Str(vin))
  {
    LookupAfterRekey(st.cars.index, Str(vin), Str(newVin), Str(newVin));
    if forall i :: 0 <= i < |st.cars.index| ==> st.cars.index[i].key != Str(newVin) {
      RekeyFresh(st.cars.index, Str(vin), Str(newVin));
    }
  }

  /** `get_car_info` after `update_vin` to a VIN the index did not hold: the
      new VIN reports what the old one did. The sales lines still carry the
      old VIN, so for a sold car the sale date and cost are whatever the
      scan finds for the new VIN. */
  lemma UpdateVinCarInfo(st: Store, vin: string, newVin: string, info: CarFullInfo)
    requires GetCarInfo(st, vin) == Ok(Some(info))
    requires forall i :: 0 <= i < |st.cars.index| ==> st.cars.index[i].key != Str(newVin)
    requires ';' !in newVin
    ensures var after := GetCarInfo(UpdateVin(st, vin, newVin).store, newVin);
      && (info.status != Sold ==> after == Ok(Some(info.(vin := newVin))))
      && (info.status == Sold && FirstSale(st.sales.lines, newVin).Ok? ==>
            var s := FirstSale(st.sales.lines, newVin).value;
            after == Ok(Some(info.(vin := newVin,
                                   salesDate := if s.Some? then Some(s.value.0) else None,
                                   salesCost := if s.Some? then Some(s.value.1) else None))))
  {
    var n := Lookup(st.cars.index, Str(vin)).value;
    RenamedLine(st, vin, newVin);
    SameCarInfo(st, vin, UpdateVin(st, vin, newVin).store, newVin, n, info);
  }

  /** Where `update_vin` to a fresh VIN leaves the car: the new VIN resolves
      to the same line, which still reads the same model id, price, date and
      status; models and sales are untouched. */
  lemma RenamedLine(st: Store, vin: string, newVin: string)
    requires Joins(st, vin)
    requires forall i :: 0 <= i < |st.cars.index| ==> st.cars.index[i].key != Str(newVin)
    requires ';' !in newVin
    ensures var n := Lookup(st.cars.index, Str(vin)).value;
      var st2 := UpdateVin(st, vin, newVin).store;
      var f, g := Fields(st.cars.lines[n]), Fields(st2.cars.lines[n]);
      && Lookup(st2.cars.index, Str(newVin)) == Some(n) && n < |st2.cars.lines|
      && st2.models == st.models && st2.sales == st.sales
      && |g| >= 5 && g[1] == f[1] && g[2] == f[2] && g[3] == f[3] && Strip(g[4]) == Strip(f[4])
  {
    var n := Lookup(st.cars.index, Str(vin)).value;
    var f := Fields(st.cars.lines[n]);
    var st2 := UpdateVin(st, vin, newVin).store;
    assert Lookup(st2.cars.index, Str(newVin)) == Some(n) by {
      UpdateVinIndexesNew(st, vin, newVin);
    }
    assert ReadsAs(st2.cars.lines[n], f[0 := newVin][4 := Strip(f[4])]) by {
      UpdateVinRewritesLine(st, vin, newVin);
    }
    RenamedFields(f, st2.cars.lines[n], newVin);
  }

  /** A line that reads as `f` renamed and with field 4 stripped keeps
      fields 1 to 3 and, once stripped, field 4. */
  lemma RenamedFields(f: seq<string>, line: string, newVin: string)
    requires |f| >= 5 && ReadsAs(line, f[0 := newVin][4 := Strip(f[4])])
    ensures var g := Fields(line);
      |g| >= 5 && g[1] == f[1] && g[2] == f[2] && g[3] == f[3] && Strip(g[4]) == Strip(f[4])
  {
    var h := f[0 := newVin][4 := Strip(f[4])];
    var g := Fields(line);
    assert g[1] == h[1] && g[2] == h[2] && g[3] == h[3];
    if |h| > 5 {
      assert g[4] == h[4];
      assert g[4][..|h[4]|] == h[4];
    }
    StripPaddedStrip(g[4], f[4]);
  }

  /** Two stores that differ only in the car line `n`'s key and VIN field
      answer `get_car_info` alike, apart from the VIN and the sales scan. */
  lemma SameCarInfo(st: Store, vin: string, st2: Store, newVin: string, n: nat, info: CarFullInfo)
    requires GetCarInfo(st, vin) == Ok(Some(info))
    requires Lookup(st.cars.index, Str(vin)) == Some(n)
    requires Lookup(st2.cars.index, Str(newVin)) == Some(n) && n < |st2.cars.lines|
    requires st2.models == st.models && st2.sales == st.sales
    requires var f, g := Fields(st.cars.lines[n]), Fields(st2.cars.lines[n]);
      |g| >= 5 && g[1] == f[1] && g[2] == f[2] && g[3] == f[3] && Strip(g[4]) == Strip(f[4])
    ensures var after := GetCarInfo(st2, newVin);
      && (info.status != Sold ==> after == Ok(Some(info.(vin := newVin))))
      && (info.status == Sold && FirstSale(st.sales.lines, newVin).Ok? ==>
            var s := FirstSale(st.sales.lines, newVin).value;
            after == Ok(Some(info.(vin := newVin,
                                   salesDate := if s.Some? then Some(s.value.0) else None,
                                   salesCost := if s.Some? then Some(s.value.1) else None))))
  {
    var f, g := Fields(st.cars.lines[n]), Fields(st2.cars.lines[n]);
    var mn := Lookup(st.models.index, Num(ParseInt(f[1]).value)).value;
    var mp := Fields(st.models.lines[mn]);
    var status := ParseStatus(Strip(f[4])).value;
    var sale := if status == Sold then FirstSale(st.sales.lines, vin).value else None;
    assert info == CarFullInfo(vin, Strip(mp[1]), Strip(mp[2]), ParseInt(f[2]).value, f[3], status,
                               if sale.Some? then Some(sale.value.0) else None,
                               if sale.Some? then Some(sale.value.1) else None) by {
      CarInfoJoin(st, vin, n, mn);
    }
    if status != Sold || FirstSale(st.sales.lines, newVin).Ok? {
      var sale2 := if status == Sold then FirstSale(st.sales.lines, newVin).value else None;
      assert GetCarInfo(st2, newVin)
          == Ok(Some(CarFullInfo(newVin, Strip(mp[1]), Strip(mp[2]), ParseInt(f[2]).value, f[3], status,
                                 if sale2.Some? then Some(sale2.value.0) else None,
                                 if sale2.Some? then Some(sale2.value.1) else None))) by {
        CarInfoJoin(st2, newVin, n, mn);
      }
    }
  }

  /** After `add_car`, `get_cars` for the new car's status reports the old
      cars and then the new one; for any other status it reports what it
      did before. An earlier failure stays the failure. */
  lemma AddCarThenGetCars(st: Store, c: Car, status: CarStatus)
    requires PlainCar(c)
    ensures var before := GetCars(st, status);
      GetCars(AddCar(st, c).store, status)
        == if before.Err? || status != c.status then before else Ok(before.value + [c])
  {
    var line := Record(Join(CarFields(c)));
    var lines := st.cars.lines;
    assert AddCar(st, c).store.cars.lines == lines + [line];
    WrittenCarLine(c, status);
    FilterAppend(lines, line, StatusTest(status));
    if status == c.status {
      TraverseAppend(LinesWithStatus(lines, status), line, CarOfLine(status));
    } else {
      assert LinesWithStatus(lines, status) + [] == LinesWithStatus(lines, status);
    }
  }

  /** The line `add_car` writes passes `get_cars`' status test exactly for
      the car's own status, and reads back as the car. */
  lemma WrittenCarLine(c: Car, status: CarStatus)
    requires PlainCar(c)
    ensures var line := Record(Join(CarFields(c)));
      && (StatusTest(status)(line) <==> status == c.status)
      && (status == c.status ==> CarOfLine(status)(line) == Ok(c))
  {
    var line := Record(Join(CarFields(c)));
    CarLineRoundTrip(c);
    if status != c.status {
      assert StatusValue(status) != StatusValue(c.status);
    }
  }

  /** `get_car_info` when every lookup and every parse succeeds: the car
      line's price, date and status, the model line's name and brand, and,
      for a sold car, the first matching sale's date and cost. */
  lemma CarInfoJoin(st: Store, vin: string, n: nat, mn: nat)
    requires Lookup(st.cars.index, Str(vin)) == Some(n) && n < |st.cars.lines|
    requires var f := Fields(st.cars.lines[n]);
      && |f| >= 5 && ParseInt(f[1]).Some? && ParseInt(f[2]).Some? && ParseStatus(Strip(f[4])).Some?
      && Lookup(st.models.index, Num(ParseInt(f[1]).value)) == Some(mn)
    requires mn < |st.models.lines| && |Fields(st.models.lines[mn])| >= 3
    requires ParseStatus(Strip(Fields(st.cars.lines[n])[4])) == Some(Sold) ==> FirstSale(st.sales.lines, vin).Ok?
    ensures var f, mp := Fields(st.cars.lines[n]), Fields(st.models.lines[mn]);
      var status := ParseStatus(Strip(f[4])).value;
      var sale := if status == Sold then FirstSale(st.sales.lines, vin).value else None;
      GetCarInfo(st, vin) == Ok(Some(CarFullInfo(vin, Strip(mp[1]), Strip(mp[2]), ParseInt(f[2]).value, f[3], status,
                                                 if sale.Some? then Some(sale.value.0) else None,
                                                 if sale.Some? then Some(sale.value.1) else None)))
  {
  }

  /** A model and then one of its cars, added to any store: `get_car_info`
      on the car's VIN joins the two records as written (name and brand
      stripped), with no sale data for a car that is not sold. */
  lemma AddThenCarInfo(st: Store, m: Model, c: Car)
    requires PlainModel(m) && PlainCar(c) && c.model == m.id && c.status != Sold
    ensures var st2 := AddCar(AddModel(st, m).store, c).store;
      GetCarInfo(st2, c.vin)
        == Ok(Some(CarFullInfo(c.vin, Strip(m.name), Strip(m.brand), c.price, c.dateStart, c.status, None, None)))
  {
    var st2 := AddCar(AddModel(st, m).store, c).store;
    AddedLines(st, m, c);
    CarLineRoundTrip(c);
    ModelLineRoundTrip(m);
    assert ParseStatus(StatusValue(c.status)) == Some(c.status);
    CarInfoJoin(st2, c.vin, |st.cars.lines|, |st.models.lines|);
  }

  /** Where `add_model` and then `add_car` put their records. */
  lemma AddedLines(st: Store, m: Model, c: Car)
    ensures var st2 := AddCar(AddModel(st, m).store, c).store;
      && Lookup(st2.cars.index, Str(c.vin)) == Some(|st.cars.lines|)
      && |st.cars.lines| < |st2.cars.lines| && st2.cars.lines[|st.cars.lines|] == Record(Join(CarFields(c)))
      && Lookup(st2.models.index, Num(m.id)) == Some(|st.models.lines|)
      && |st.models.lines| < |st2.models.lines| && st2.models.lines[|st.models.lines|] == Record(Join(ModelFields(m)))
      && st2.sales == st.sales
  {
  }

  /** `revert_sale` undoes `sell_car` on the sales files: for a fresh sale
      number, selling and then reverting that number leaves `sales.txt` and
      `sales_index.txt` as they were, and the VIN the revert finds is the
      sold car's. */
  lemma SellThenRevertSales(st: Store, sale: Sale)
    requires PlainSale(sale)
    requires Sorted(st.sales.index)
    requires forall i :: 0 <= i < |st.sales.index| ==> st.sales.index[i].key != Str(sale.salesNumber)
    requires forall i :: 0 <= i < |st.sales.lines| ==> !NumberedAs(st.sales.lines[i], sale.salesNumber)
    ensures var sold := SellCar(st, sale).store;
      && RemovedVin(sold.sales.lines, sale.salesNumber) == Ok(Some(sale.carVin))
      && RevertSale(sold, sale.salesNumber).store.sales == st.sales
  {
    var sold := SellCar(st, sale).store;
    var sn := sale.salesNumber;
    var rec := Record(Join(SaleFields(sale)));
    SellRemovedVin(st, sale);
    SaleLineRoundTrip(sale);
    KeptAfterAppend(st.sales.lines, rec, sn);
    SellCarIndexesSale(st, sale);
    RemoveAfterAdd(st.sales.index, Str(sn), |st.sales.lines|);
  }

  /** `sell_car` adds the sale's pair to the sales index. */
  lemma SellCarIndexesSale(st: Store, sale: Sale)
    ensures SellCar(st, sale).store.sales.index == Add(st.sales.index, Str(sale.salesNumber), |st.sales.lines|)
  {
    var t := Append(st.sales, Str(sale.salesNumber), Join(SaleFields(sale)));
    assert t.index == Add(st.sales.index, Str(sale.salesNumber), |st.sales.lines|);
    assert SellCar(st, sale).store.sales == t;
  }

  /** `revert_sale`'s filter drops a last line with the number and keeps
      every line without it. */
  lemma KeptAfterAppend(lines: seq<string>, rec: string, sn: string)
    requires forall i :: 0 <= i < |lines| ==> !NumberedAs(lines[i], sn)
    requires NumberedAs(rec, sn)
    ensures KeptSales(lines + [rec], sn) == lines
  {
    FilterAppend(lines, rec, OtherNumber(sn));
    FilterAll(lines, OtherNumber(sn));
  }

  /** After `sell_car`, `sales.txt` is the old lines plus the sale's, and
      when no older line carries the sale number, `revert_sale`'s loop
      finds exactly the sold VIN. */
  lemma SellRemovedVin(st: Store, sale: Sale)
    requires PlainSale(sale)
    requires forall i :: 0 <= i < |st.sales.lines| ==> !NumberedAs(st.sales.lines[i], sale.salesNumber)
    ensures var sold := SellCar(st, sale).store;
      && sold.sales.lines == st.sales.lines + [Record(Join(SaleFields(sale)))]
      && RemovedVin(sold.sales.lines, sale.salesNumber) == Ok(Some(sale.carVin))
  {
    var sold := SellCar(st, sale).store;
    var sn := sale.salesNumber;
    var rec := Record(Join(SaleFields(sale)));
    assert sold.sales.lines == st.sales.lines + [rec];
    SaleLineRoundTrip(sale);
    assert (st.sales.lines + [rec])[..|st.sales.lines|] == st.sales.lines;
    assert RemovedVin(st.sales.lines, sn) == Ok(None);
  }

  /** Writing a car line with status `sold` and then with `available` gives
      back the line `add_car` wrote for an available car. */
  lemma SoldThenAvailable(c: Car)
    requires PlainCar(c) && c.status == Available
    ensures var line := Record(Join(CarFields(c)));
      |Fields(line)| == 5 &&
      var sold := Record(Join(Fields(line)[4 := StatusValue(Sold)]));
      |Fields(sold)| == 5 &&
      Record(Join(Fields(sold)[4 := StatusValue(Available)])) == line
  {
    var h := CarFields(c);
    IntToStringPlain(c.model);
    IntToStringPlain(c.price);
    StatusValueShape(Sold);
    assert Encodable(h);
    RecordFields(h);
    var f := Fields(Record(Join(h)));
    var g := f[4 := StatusValue(Sold)];
    assert g == h[4 := StatusValue(Sold)];
    assert Encodable(g);
    RecordFields(g);
    assert Fields(Record(Join(g)))[4 := StatusValue(Available)] == h;
  }

  /** `sell_car` on an indexed car with all five fields rewrites exactly
      that line, with field 4 set to `sold`. */
  lemma SellCarRewrites(st: Store, sale: Sale)
    requires Resolves(st.cars, Str(sale.carVin))
    requires |Fields(st.cars.lines[Lookup(st.cars.index, Str(sale.carVin)).value])| >= 5
    ensures var n := Lookup(st.cars.index, Str(sale.carVin)).value;
      SellCar(st, sale).store.cars.lines
        == st.cars.lines[n := Record(Join(Fields(st.cars.lines[n])[4 := StatusValue(Sold)]))]
  {
  }

  /** When `revert_sale` succeeds, the car line it touched is the old one
      with field 4 set to `available` and written back. */
  lemma RevertSaleRewrites(st: Store, sn: string, vin: string)
    requires RemovedVin(st.sales.lines, sn) == Ok(Some(vin))
    requires RevertSale(st, sn).out.Ok?
    ensures Resolves(st.cars, Str(vin))
    ensures var n := Lookup(st.cars.index, Str(vin)).value;
      |Fields(st.cars.lines[n])| >= 5 &&
      RevertSale(st, sn).store.cars.lines
        == st.cars.lines[n := Record(Join(Fields(st.cars.lines[n])[4 := StatusValue(Available)]))]
  {
  }

  /** When `revert_sale` succeeds, the car's line reads as its old fields
      with only field 4 set to `available`: VIN, model, price and date are
      written back as they were. */
  lemma RevertSaleMarksAvailable(st: Store, sn: string, vin: string)
    requires RemovedVin(st.sales.lines, sn) == Ok(Some(vin))
    requires RevertSale(st, sn).out.Ok?
    ensures Resolves(st.cars, Str(vin))
    ensures var n := Lookup(st.cars.index, Str(vin)).value;
      var f := Fields(st.cars.lines[n]);
      var r := RevertSale(st, sn);
      && |f| >= 5
      && ReadsAs(r.store.cars.lines[n], f[4 := "available"])
      && (forall i :: 0 <= i < 4 ==> Fields(r.store.cars.lines[n])[i] == f[i])
      && HasStatus(r.store.cars.lines[n], Available)
  {
    RevertSaleRewrites(st, sn, vin);
    var n := Lookup(st.cars.index, Str(vin)).value;
    AvailableAt(st.cars.lines, RevertSale(st, sn).store.cars.lines, n);
  }

  /** The same for the second half of `revert_sale` on its own. */
  lemma RestoreCarMarksAvailable(st: Store, vin: string)
    requires RestoreCar(st, vin).out.Ok?
    ensures Resolves(st.cars, Str(vin))
    ensures var n := Lookup(st.cars.index, Str(vin)).value;
      var f := Fields(st.cars.lines[n]);
      var r := RestoreCar(st, vin);
      && |f| >= 5
      && ReadsAs(r.store.cars.lines[n], f[4 := "available"])
      && (forall i :: 0 <= i < 4 ==> Fields(r.store.cars.lines[n])[i] == f[i])
      && HasStatus(r.store.cars.lines[n], Available)
  {
    var n := Lookup(st.cars.index, Str(vin)).value;
    AvailableAt(st.cars.lines, RestoreCar(st, vin).store.cars.lines, n);
  }

  /** Line `n` of `after` is line `n` of `before` with field 4 set to
      `available`: it reads as those fields. */
  lemma AvailableAt(before: seq<string>, after: seq<string>, n: nat)
    requires n < |before| && |Fields(before[n])| >= 5
    requires after == before[n := Record(Join(Fields(before[n])[4 := StatusValue(Available)]))]
    ensures var f := Fields(before[n]);
      && ReadsAs(after[n], f[4 := "available"])
      && (forall i :: 0 <= i < 4 ==> Fields(after[n])[i] == f[i])
      && HasStatus(after[n], Available)
  {
    MarkedStatus(before[n], Available);
  }

  /** And on the car: when the revert succeeds, the car line `add_car` wrote
      for an available car is back exactly as it was. */
  lemma SellThenRevertCar(st: Store, sale: Sale, c: Car)
    requires PlainCar(c) && c.status == Available && c.vin == sale.carVin
    requires Resolves(st.cars, Str(c.vin))
    requires st.cars.lines[Lookup(st.cars.index, Str(c.vin)).value] == Record(Join(CarFields(c)))
    requires PlainSale(sale)
    requires forall i :: 0 <= i < |st.sales.lines| ==> !NumberedAs(st.sales.lines[i], sale.salesNumber)
    ensures var r := RevertSale(SellCar(st, sale).store, sale.salesNumber);
      r.out.Ok? ==> r.store.cars == st.cars
  {
    SellRemovedVin(st, sale);
    CarLineRoundTrip(c);
    SellCarRewrites(st, sale);
    RevertRestores(st, SellCar(st, sale).store, sale.salesNumber, c);
  }

  /** And the revert does succeed: for an available car `add_car` wrote,
      with its model on file and never sold before, selling it under a fresh
      sale number and reverting that number returns normally, and the car
      line is back as it was, status `available`. */
  lemma SellThenRevertSucceeds(st: Store, m: Model, c: Car, sale: Sale)
    requires PlainModel(m) && PlainCar(c) && PlainSale(sale)
    requires c.model == m.id && c.vin == sale.carVin && c.status == Available
    requires Resolves(st.cars, Str(c.vin))
    requires st.cars.lines[Lookup(st.cars.index, Str(c.vin)).value] == Record(Join(CarFields(c)))
    requires Resolves(st.models, Num(m.id))
    requires st.models.lines[Lookup(st.models.index, Num(m.id)).value] == Record(Join(ModelFields(m)))
    requires forall i :: 0 <= i < |st.sales.lines| ==> OtherVin(st.sales.lines[i], c.vin)
    requires forall i :: 0 <= i < |st.sales.lines| ==> !NumberedAs(st.sales.lines[i], sale.salesNumber)
    ensures var r := RevertSale(SellCar(st, sale).store, sale.salesNumber);
      r.out == Ok(()) && r.store.cars == st.cars
  {
    var sold := SellCar(st, sale).store;
    var sn := sale.salesNumber;
    var rec := Record(Join(SaleFields(sale)));
    SellRemovedVin(st, sale);
    var r := RevertSale(sold, sn);
    assert r.store.sales.lines == st.sales.lines by {
      SaleLineRoundTrip(sale);
      KeptAfterAppend(st.sales.lines, rec, sn);
    }
    SoldCarJoins(st, m, c, sale, r.store.sales);
    SellThenRevertCar(st, sale, c);
  }

  /** After the sale, with any sales table whose lines all name other cars,
      everything `get_car_info` reads for the car succeeds. */
  lemma SoldCarJoins(st: Store, m: Model, c: Car, sale: Sale, sales: Table)
    requires PlainModel(m) && PlainCar(c)
    requires c.model == m.id && c.vin == sale.carVin
    requires Resolves(st.cars, Str(c.vin))
    requires st.cars.lines[Lookup(st.cars.index, Str(c.vin)).value] == Record(Join(CarFields(c)))
    requires Resolves(st.models, Num(m.id))
    requires st.models.lines[Lookup(st.models.index, Num(m.id)).value] == Record(Join(ModelFields(m)))
    requires forall i :: 0 <= i < |sales.lines| ==> OtherVin(sales.lines[i], c.vin)
    ensures Joins(SellCar(st, sale).store.(sales := sales), c.vin)
  {
    var x := SellCar(st, sale).store.(sales := sales);
    var n, mn := Lookup(st.cars.index, Str(c.vin)).value, Lookup(st.models.index, Num(m.id)).value;
    assert x.cars.index == st.cars.index && x.models == st.models && |x.cars.lines| == |st.cars.lines|;
    SoldLineReads(st, sale, c);
    ModelLineRoundTrip(m);
    assert FirstSale(sales.lines, c.vin) == Ok(None);
    JoinsFrom(x, c.vin, n, mn);
  }

  /** `Joins` from the facts it is made of, given the two lines' slots. */
  lemma JoinsFrom(st: Store, vin: string, n: nat, mn: nat)
    requires Lookup(st.cars.index, Str(vin)) == Some(n) && n < |st.cars.lines|
    requires var f := Fields(st.cars.lines[n]);
      && |f| >= 5 && ParseInt(f[1]).Some? && ParseInt(f[2]).Some? && ParseStatus(Strip(f[4])).Some?
      && Lookup(st.models.index, Num(ParseInt(f[1]).value)) == Some(mn)
      && (ParseStatus(Strip(f[4])) == Some(Sold) ==> FirstSale(st.sales.lines, vin).Ok?)
    requires mn < |st.models.lines| && |Fields(st.models.lines[mn])| >= 3
    ensures Joins(st, vin)
  {
  }

  lemma RevertRestores(st: Store, sold: Store, sn: string, c: Car)
    requires PlainCar(c) && c.status == Available
    requires Resolves(st.cars, Str(c.vin))
    requires var n := Lookup(st.cars.index, Str(c.vin)).value;
      && st.cars.lines[n] == Record(Join(CarFields(c)))
      && |Fields(st.cars.lines[n])| == 5
      && sold.cars.index == st.cars.index
      && sold.cars.lines == st.cars.lines[n := Record(Join(Fields(st.cars.lines[n])[4 := StatusValue(Sold)]))]
    requires RemovedVin(sold.sales.lines, sn) == Ok(Some(c.vin))
    ensures RevertSale(sold, sn).out.Ok? ==> RevertSale(sold, sn).store.cars == st.cars
  {
    if RevertSale(sold, sn).out.Ok? {
      var n := Lookup(st.cars.index, Str(c.vin)).value;
      RevertSaleRewrites(sold, sn, c.vin);
      RestoredTable(st.cars, sold.cars, RevertSale(sold, sn).store.cars, n, c);
    }
  }

  /** The car table after a status rewrite to `sold` and one back to
      `available`, for a line `add_car` wrote for an available car. */
  lemma RestoredTable(t: Table, sold: Table, after: Table, n: nat, c: Car)
    requires PlainCar(c) && c.status == Available
    requires n < |t.lines| && t.lines[n] == Record(Join(CarFields(c))) && |Fields(t.lines[n])| >= 5
    requires sold.index == t.index && after.index == t.index
    requires sold.lines == t.lines[n := Record(Join(Fields(t.lines[n])[4 := StatusValue(Sold)]))]
    requires |Fields(sold.lines[n])| >= 5
    requires after.lines == sold.lines[n := Record(Join(Fields(sold.lines[n])[4 := StatusValue(Available)]))]
    ensures after == t
  {
    SoldThenAvailable(c);
    assert after.lines == t.lines;
  }

  /** `get_car_info`'s scan over a longer `sales.txt` whose old lines all
      name other cars: only the new line can match. */
  lemma {:induction false} FirstSaleAfterOthers(lines: seq<string>, line: string, vin: string)
    requires forall i :: 0 <= i < |lines| ==> OtherVin(lines[i], vin)
    ensures FirstSale(lines + [line], vin) == FirstSale([line], vin)
    decreases |lines|
  {
    if lines != [] {
      assert (lines + [line])[1..] == lines[1..] + [line];
      FirstSaleAfterOthers(lines[1..], line, vin);
    }
  }

  /** The sale line `sell_car` writes is what `get_car_info` finds. */
  lemma FirstSaleOfWritten(sale: Sale)
    requires PlainSale(sale)
    ensures FirstSale([Record(Join(SaleFields(sale)))], sale.carVin) == Ok(Some((sale.salesDate, sale.cost)))
  {
    SaleLineRoundTrip(sale);
  }

  /** The car line after `sell_car`, for a car `add_car` wrote: it reads as
      the car with status `sold`. */
  lemma SoldLineReads(st: Store, sale: Sale, c: Car)
    requires PlainCar(c) && c.vin == sale.carVin
    requires Resolves(st.cars, Str(c.vin))
    requires st.cars.lines[Lookup(st.cars.index, Str(c.vin)).value] == Record(Join(CarFields(c)))
    ensures var n := Lookup(st.cars.index, Str(c.vin)).value;
      var g := Fields(SellCar(st, sale).store.cars.lines[n]);
      && |g| >= 5
      && ParseInt(g[1]) == Some(c.model) && ParseInt(g[2]) == Some(c.price)
      && g[3] == c.dateStart && ParseStatus(Strip(g[4])) == Some(Sold)
  {
    var n := Lookup(st.cars.index, Str(c.vin)).value;
    var f := Fields(st.cars.lines[n]);
    CarLineRoundTrip(c);
    SellCarMarksSold(st, sale);
    var g := Fields(SellCar(st, sale).store.cars.lines[n]);
    assert g[1] == f[1] && g[2] == f[2] && g[3] == f[3];
  }

  /** Selling a car `add_car` wrote (with its model on file and no earlier
      sale of that VIN) and then asking `get_car_info`: the car shows as
      sold, with this sale's date and cost. */
  lemma SellThenCarInfo(st: Store, m: Model, c: Car, sale: Sale)
    requires PlainModel(m) && PlainCar(c) && PlainSale(sale)
    requires c.model == m.id && c.vin == sale.carVin
    requires Resolves(st.cars, Str(c.vin))
    requires st.cars.lines[Lookup(st.cars.index, Str(c.vin)).value] == Record(Join(CarFields(c)))
    requires Resolves(st.models, Num(m.id))
    requires st.models.lines[Lookup(st.models.index, Num(m.id)).value] == Record(Join(ModelFields(m)))
    requires forall i :: 0 <= i < |st.sales.lines| ==> OtherVin(st.sales.lines[i], c.vin)
    ensures GetCarInfo(SellCar(st, sale).store, c.vin)
              == Ok(Some(CarFullInfo(c.vin, Strip(m.name), Strip(m.brand), c.price, c.dateStart, Sold,
                                     Some(sale.salesDate), Some(sale.cost))))
  {
    var sold := SellCar(st, sale).store;
    var rec := Record(Join(SaleFields(sale)));
    assert sold.sales.lines == st.sales.lines + [rec];
    FirstSaleAfterOthers(st.sales.lines, rec, c.vin);
    FirstSaleOfWritten(sale);
    SoldLineReads(st, sale, c);
    ModelLineRoundTrip(m);
    CarInfoJoin(sold, c.vin, Lookup(st.cars.index, Str(c.vin)).value, Lookup(st.models.index, Num(m.id)).value);
  }

  /** `revert_sale` neither renumbers the remaining index pairs nor undoes
      its file writes when the car lookup then fails: reverting the first
      of two sales, with no car on file, leaves one sales line, an index
      pair still pointing at slot 1, and the error. */
  lemma StaleSlotExample()
    ensures var sales := Table(["S1;V1;d;5\n", "S2;V2;d;7\n"], [Entry(Str("S1"), 0), Entry(Str("S2"), 1)]);
      var r := RevertSale(Empty.(sales := sales), "S1");
      && r.store.sales == Table(["S2;V2;d;7\n"], [Entry(Str("S2"), 1)])
      && r.out == Err(CarInfoNotFound)
  {
    ExampleSalesLines();
    ExampleSalesIndex();
  }

  lemma ExampleSalesLines()
    ensures var lines := ["S1;V1;d;5\n", "S2;V2;d;7\n"];
      && RemovedVin(lines, "S1") == Ok(Some("V1"))
      && KeptSales(lines, "S1") == ["S2;V2;d;7\n"]
  {
    var l1, l2 := "S1;V1;d;5\n", "S2;V2;d;7\n";
    ExampleFields();
    var lines := [l1, l2];
    assert lines[..1] == [l1];
    assert RemovedVin([l1], "S1") == Ok(Some("V1"));
    FilterAppend([l1], l2, OtherNumber("S1"));
    assert [l1] == [] + [l1];
    FilterAppend([], l1, OtherNumber("S1"));
  }

  lemma ExampleFields()
    ensures Fields("S1;V1;d;5\n") == ["S1", "V1", "d", "5"]
    ensures Fields("S2;V2;d;7\n") == ["S2", "V2", "d", "7"]
  {
    assert "S1;V1;d;5\n" == Join(["S1", "V1", "d", "5"]) + "\n";
    assert "S2;V2;d;7\n" == Join(["S2", "V2", "d", "7"]) + "\n";
    ShortLineFields(["S1", "V1", "d", "5"]);
    ShortLineFields(["S2", "V2", "d", "7"]);
  }

  lemma ExampleSalesIndex()
    ensures Sort(Remove([Entry(Str("S1"), 0), Entry(Str("S2"), 1)], Str("S1")), EntryLe) == [Entry(Str("S2"), 1)]
  {
    var index := [Entry(Str("S1"), 0), Entry(Str("S2"), 1)];
    assert index[..1] == [Entry(Str("S1"), 0)];
    assert Remove(index, Str("S1")) == [Entry(Str("S2"), 1)];
  }

  /** An unpadded line, as a reader sees it. */
  lemma ShortLineFields(parts: seq<string>)
    requires |parts| >= 1 && NoSemicolon(parts) && !EndsWithNewline(parts[|parts| - 1])
    ensures Fields(Join(parts) + "\n") == parts
  {
    var s := Join(parts);
    JoinNoTrailingNewline(parts);
    assert RStripNewlines(s + "\n") == s by {
      assert (s + "\n")[..|s|] == s;
    }
    SplitJoin(parts);
  }
}

=== FILE: sorted_index.dfy ===
/** The index files: `key;slot` pairs kept sorted by key. Each operation
    reads the pairs in file order, changes them, sorts them with Python's
    stable sort and writes them all back. Readers build a dict from the
    pairs in file order, so for a key that occurs twice the later pair wins. */
module SortedIndex {
  import opened Results
  import opened StableSort

  /** Primary keys: model ids are compared as integers, VINs and sales
      numbers as Python strings (code point by code point). An index only
      ever holds keys of one kind. */
  datatype Key = Num(n: int) | Str(s: string)

  /** One `key;slot` pair: the record with this key sits on line `slot`. */
  datatype Entry = Entry(key: Key, slot: nat)

  type Index = seq<Entry>

  /** Python's `<=` on `str`. */
  predicate LexLe(a: string, b: string) {
    if a == [] then true
    else if b == [] then false
    else if a[0] != b[0] then a[0] < b[0]
    else LexLe(a[1..], b[1..])
  }

  predicate KeyLe(a: Key, b: Key) {
    match (a, b)
    case (Num(x), Num(y)) => x <= y
    case (Str(x), Str(y)) => LexLe(x, y)
    case (Num(_), Str(_)) => true
    case (Str(_), Num(_)) => false
  }

  /** The order `entries.sort(key=lambda x: x[0])` uses. */
  predicate EntryLe(a: Entry, b: Entry) {
    KeyLe(a.key, b.key)
  }

  lemma {:induction false} LexTotal(a: string, b: string)
    ensures LexLe(a, b) || LexLe(b, a)
    decreases |a|
  {
    if a != [] && b != [] && a[0] == b[0] {
      LexTotal(a[1..], b[1..]);
    }
  }

  lemma {:induction false} LexTransitive(a: string, b: string, c: string)
    requires LexLe(a, b) && LexLe(b, c)
    ensures LexLe(a, c)
    decreases |a|
  {
    if a != [] && b != [] && c != [] && a[0] == b[0] && b[0] == c[0] {
      LexTransitive(a[1..], b[1..], c[1..]);
    }
  }

  lemma {:induction false} LexAntisymmetric(a: string, b: string)
    requires LexLe(a, b) && LexLe(b, a)
    ensures a == b
    decreases |a|
  {
    if a != [] {
      LexAntisymmetric(a[1..], b[1..]);
      assert a == [a[0]] + a[1..] && b == [b[0]] + b[1..];
    }
  }

  /** Two entries are tied in the sort exactly when their keys are equal. */
  lemma TiedIffSameKey(a: Entry, b: Entry)
    ensures Tied(a, b, EntryLe) <==> a.key == b.key
  {
    if a.key.Str? && b.key.Str? {
      if LexLe(a.key.s, b.key.s) && LexLe(b.key.s, a.key.s) {
        LexAntisymmetric(a.key.s, b.key.s);
      }
      if a.key == b.key {
        LexTotal(a.key.s, b.key.s);
      }
    }
  }

  lemma EntryOrder()
    ensures TotalPreorder(EntryLe)
  {
    forall a: Entry, b: Entry
      ensures EntryLe(a, b) || EntryLe(b, a)
    {
      if a.key.Str? && b.key.Str? {
        LexTotal(a.key.s, b.key.s);
      }
    }
    forall a: Entry, b: Entry, c: Entry | EntryLe(a, b) && EntryLe(b, c)
      ensures EntryLe(a, c)
    {
      if a.key.Str? && b.key.Str? && c.key.Str? {
        LexTransitive(a.key.s, b.key.s, c.key.s);
      }
    }
  }

  ghost predicate Sorted(idx: Index) {
    SortedBy(idx, EntryLe)
  }

  /** The slot the dict built from `idx` maps `k` to: that of the last pair
      with key `k`. */
  function Lookup(idx: Index, k: Key): (r: Option<nat>)
    ensures r.None? <==> forall i :: 0 <= i < |idx| ==> idx[i].key != k
    ensures r.Some? ==> exists i :: 0 <= i < |idx| && idx[i] == Entry(k, r.value)
                          && forall j :: i < j < |idx| ==> idx[j].key != k
  {
    if idx == [] then None
    else if idx[|idx| - 1].key == k then Some(idx[|idx| - 1].slot)
    else
      var init := idx[..|idx| - 1];
      var r := Lookup(init, k);
      assert forall i :: 0 <= i < |init| ==> init[i] == idx[i];
      if r.Some? then
        ghost var i :| 0 <= i < |init| && init[i] == Entry(k, r.value)
                      && forall j :: i < j < |init| ==> init[j].key != k;
        assert idx[i] == Entry(k, r.value);
        r
      else
        r
  }

  function LastSlot(t: Index): Option<nat> {
    if t == [] then None else Some(t[|t| - 1].slot)
  }

  /** A lookup sees only the tie class of its key. */
  lemma {:induction false} LookupViaTie(idx: Index, k: Key)
    ensures Lookup(idx, k) == LastSlot(Tie(idx, Entry(k, 0), EntryLe))
    decreases |idx|
  {
    if idx != [] {
      var last := idx[|idx| - 1];
      TiedIffSameKey(last, Entry(k, 0));
      LookupViaTie(idx[..|idx| - 1], k);
    }
  }

  /** Sorting never changes what a lookup finds, even with duplicate keys. */
  lemma LookupAfterSort(idx: Index, k: Key)
    ensures Lookup(Sort(idx, EntryLe), k) == Lookup(idx, k)
  {
    EntryOrder();
    SortStable(idx, Entry(k, 0), EntryLe);
    LookupViaTie(idx, k);
    LookupViaTie(Sort(idx, EntryLe), k);
  }

  /** The index as `add_model`, `add_car` and `sell_car` leave it: the old
      pairs plus `(k, slot)`, sorted; nothing is removed. */
  function Add(idx: Index, k: Key, slot: nat): (r: Index)
    ensures |r| == |idx| + 1
    ensures multiset(r) == multiset(idx) + multiset{Entry(k, slot)}
  {
    Sort(idx + [Entry(k, slot)], EntryLe)
  }

  /** After `Add` the index is sorted; if it was sorted already, the new pair
      sits right after every pair whose key is not greater. */
  lemma AddShape(idx: Index, k: Key, slot: nat)
    ensures Sorted(Add(idx, k, slot))
    ensures Sorted(idx) ==>
      var p := InsertPoint(idx, Entry(k, slot), EntryLe);
      && Add(idx, k, slot) == idx[..p] + [Entry(k, slot)] + idx[p..]
      && (forall i :: 0 <= i < p ==> KeyLe(idx[i].key, k))
      && (forall i :: p <= i < |idx| ==> !KeyLe(idx[i].key, k))
  {
    EntryOrder();
    SortSorted(idx + [Entry(k, slot)], EntryLe);
    if Sorted(idx) {
      SortAppend(idx, Entry(k, slot), EntryLe);
      InsertSplits(idx, Entry(k, slot), EntryLe);
    }
  }

  /** After `Add`, the new key resolves to the new slot (the new pair is the
      last of its key) and every other key resolves as before. */
  lemma LookupAfterAdd(idx: Index, k: Key, slot: nat, k': Key)
    ensures Lookup(Add(idx, k, slot), k') == if k' == k then Some(slot) else Lookup(idx, k')
  {
    var e := Entry(k, slot);
    var before := Tie(Sort(idx, EntryLe), Entry(k', 0), EntryLe);
    var added := if k' == k then [e] else [];
    assert Lookup(Add(idx, k, slot), k') == LastSlot(before + added) by {
      AddTie(idx, k, slot, k');
      LookupViaTie(Add(idx, k, slot), k');
    }
    assert Lookup(idx, k') == LastSlot(before) by {
      LookupAfterSort(idx, k');
      LookupViaTie(Sort(idx, EntryLe), k');
    }
    if k' != k {
      assert before + added == before;
    }
  }

  /** `Add` puts the new pair at the end of its key's tie class. */
  lemma AddTie(idx: Index, k: Key, slot: nat, k': Key)
    ensures Tie(Add(idx, k, slot), Entry(k', 0), EntryLe)
         == Tie(Sort(idx, EntryLe), Entry(k', 0), EntryLe) + (if k' == k then [Entry(k, slot)] else [])
  {
    EntryOrder();
    var e := Entry(k, slot);
    assert (idx + [e])[..|idx + [e]| - 1] == idx;
    assert Add(idx, k, slot) == Insert(Sort(idx, EntryLe), e, EntryLe);
    InsertTie(Sort(idx, EntryLe), e, Entry(k', 0), EntryLe);
    TiedIffSameKey(e, Entry(k', 0));
  }

  /** `update_vin`'s renaming: every pair with key `from` gets key `to`,
      slots untouched. */
  function Rekey(idx: Index, from: Key, to: Key): (r: Index)
    ensures |r| == |idx|
    ensures forall i :: 0 <= i < |idx| ==> r[i].slot == idx[i].slot
    ensures forall i :: 0 <= i < |idx| ==>
              r[i].key == if idx[i].key == from then to else idx[i].key
  {
    seq(|idx|, i requires 0 <= i < |idx| =>
      if idx[i].key == from then Entry(to, idx[i].slot) else idx[i])
  }

  /** `revert_sale`'s filter: the pairs whose key is not `k`, in order, with
      their slots as they were. */
  function Remove(idx: Index, k: Key): (r: Index)
    ensures forall e :: e in r <==> e in idx && e.key != k
    ensures |r| <= |idx|
  {
    if idx == [] then []
    else
      var init, last := idx[..|idx| - 1], idx[|idx| - 1];
      assert idx == init + [last];
      Remove(init, k) + (if last.key == k then [] else [last])
  }

  lemma {:induction false} RemoveKeepsOrder(idx: Index, k: Key)
    requires Sorted(idx)
    ensures Sorted(Remove(idx, k))
    decreases |idx|
  {
    if idx != [] {
      var init, last := idx[..|idx| - 1], idx[|idx| - 1];
      RemoveKeepsOrder(init, k);
      var r := Remove(init, k);
      forall e | e in r
        ensures EntryLe(e, last)
      {
        var i :| 0 <= i < |init| && init[i] == e;
      }
    }
  }

  /** `revert_sale`'s filter-then-sort: the result is sorted, and when the
      index was sorted the sort moves nothing, so no slot is renumbered. */
  lemma RemoveThenSort(idx: Index, k: Key)
    ensures Sorted(Sort(Remove(idx, k), EntryLe))
    ensures Sorted(idx) ==> Sort(Remove(idx, k), EntryLe) == Remove(idx, k)
  {
    EntryOrder();
    SortSorted(Remove(idx, k), EntryLe);
    if Sorted(idx) {
      RemoveKeepsOrder(idx, k);
      SortOfSorted(Remove(idx, k), EntryLe);
    }
  }

  /** Removing one key leaves every other key resolving to the same slot. */
  lemma {:induction false} LookupAfterRemove(idx: Index, k: Key, k': Key)
    requires k' != k
    ensures Lookup(Remove(idx, k), k') == Lookup(idx, k')
    decreases |idx|
  {
    if idx != [] {
      var init, last := idx[..|idx| - 1], idx[|idx| - 1];
      LookupAfterRemove(init, k, k');
      var r := Remove(init, k);
      if last.key != k {
        assert (r + [last])[..|r|] == r;
      } else {
        assert r + [] == r;
      }
    }
  }

  /** After renaming, the old key is gone (unless it is also the new one),
      and every key other than the new one resolves as before; `RekeyFresh`
      says where a new key the index did not hold resolves. */
  lemma {:induction false} LookupAfterRekey(idx: Index, from: Key, to: Key, k: Key)
    ensures k == from && from != to ==> Lookup(Rekey(idx, from, to), k).None?
    ensures k != from && k != to ==> Lookup(Rekey(idx, from, to), k) == Lookup(idx, k)
    ensures Lookup(idx, from).Some? ==> Lookup(Rekey(idx, from, to), to).Some?
    decreases |idx|
  {
    if idx != [] {
      var init := idx[..|idx| - 1];
      assert Rekey(idx, from, to)[..|idx| - 1] == Rekey(init, from, to);
      LookupAfterRekey(init, from, to, k);
    }
  }

  /** Renaming onto a key the index does not hold moves the old key's slot
      to the new key. */
  lemma {:induction false} RekeyFresh(idx: Index, from: Key, to: Key)
    requires forall i :: 0 <= i < |idx| ==> idx[i].key != to
    ensures Lookup(Rekey(idx, from, to), to) == Lookup(idx, from)
    decreases |idx|
  {
    if idx != [] {
      var init, last := idx[..|idx| - 1], idx[|idx| - 1];
      assert Rekey(idx, from, to)[..|idx| - 1] == Rekey(init, from, to);
      assert forall i :: 0 <= i < |init| ==> init[i] == idx[i];
      RekeyFresh(init, from, to);
    }
  }

  /** Removal keeps every other pair as often as the index holds it. */
  lemma {:induction false} RemoveCounts(idx: Index, k: Key, e: Entry)
    ensures multiset(Remove(idx, k))[e] == if e.key != k then multiset(idx)[e] else 0
    decreases |idx|
  {
    if idx != [] {
      var init, last := idx[..|idx| - 1], idx[|idx| - 1];
      assert idx == init + [last];
      RemoveCounts(init, k, e);
    }
  }

  /** Removing a key from two pieces removes it from each. */
  lemma {:induction false} RemoveConcat(a: Index, b: Index, k: Key)
    ensures Remove(a + b, k) == Remove(a, k) + Remove(b, k)
    decreases |b|
  {
    if b == [] {
      assert a + b == a;
    } else {
      var init := b[..|b| - 1];
      assert (a + b)[..|a + b| - 1] == a + init;
      RemoveConcat(a, init, k);
    }
  }

  /** Removing a key the index does not hold changes nothing. */
  lemma {:induction false} RemoveAbsent(idx: Index, k: Key)
    requires forall i :: 0 <= i < |idx| ==> idx[i].key != k
    ensures Remove(idx, k) == idx
    decreases |idx|
  {
    if idx != [] {
      var init, last := idx[..|idx| - 1], idx[|idx| - 1];
      RemoveAbsent(init, k);
      assert last.key != k;
      assert Remove(idx, k) == init + [last];
    }
  }

  /** Adding a pair for a key the sorted index lacks and then removing that
      key gives the index back. */
  lemma RemoveAfterAdd(idx: Index, k: Key, slot: nat)
    requires Sorted(idx)
    requires forall i :: 0 <= i < |idx| ==> idx[i].key != k
    ensures Remove(Add(idx, k, slot), k) == idx
  {
    AddSplice(idx, k, slot);
    RemoveSplice(idx, InsertPoint(idx, Entry(k, slot), EntryLe), Entry(k, slot));
  }

  lemma RemoveSplice(idx: Index, p: nat, e: Entry)
    requires p <= |idx|
    requires forall i :: 0 <= i < |idx| ==> idx[i].key != e.key
    ensures Remove(idx[..p] + [e] + idx[p..], e.key) == idx
  {
    RemoveAround(idx[..p], e, idx[p..]);
    assert idx[..p] + idx[p..] == idx;
  }

  /** Into a sorted index, `Add` splices the new pair at its insertion point. */
  lemma AddSplice(idx: Index, k: Key, slot: nat)
    requires Sorted(idx)
    ensures var p := InsertPoint(idx, Entry(k, slot), EntryLe);
      Add(idx, k, slot) == idx[..p] + [Entry(k, slot)] + idx[p..]
  {
    EntryOrder();
    SortAppend(idx, Entry(k, slot), EntryLe);
  }

  /** `revert_sale`'s filter-then-sort undoes `sell_car`'s append-then-sort
      of a new sale number. */
  lemma RemoveSortAfterAdd(idx: Index, k: Key, slot: nat)
    requires Sorted(idx)
    requires forall i :: 0 <= i < |idx| ==> idx[i].key != k
    ensures Sort(Remove(Add(idx, k, slot), k), EntryLe) == idx
  {
    RemoveAfterAdd(idx, k, slot);
    RemoveThenSort(idx, k);
    RemoveAbsent(idx, k);
  }

  lemma RemoveAround(a: Index, e: Entry, b: Index)
    requires forall i :: 0 <= i < |a| ==> a[i].key != e.key
    requires forall i :: 0 <= i < |b| ==> b[i].key != e.key
    ensures Remove(a + [e] + b, e.key) == a + b
  {
    var k := e.key;
    RemoveConcat(a + [e], b, k);
    RemoveConcat(a, [e], k);
    RemoveAbsent(a, k);
    RemoveAbsent(b, k);
    assert Remove([e], k) == [] by {
      assert [e][..0] == [];
    }
    assert Remove(a + [e], k) == a;
  }
}

=== FILE: stable_sort.dfy ===
/** Python's `list.sort(key=...)` and `sorted(..., key=...)`: a stable sort
    by a total preorder. It is modelled as insertion sort; `SortUnique`
    shows that every stable sort yields the same sequence, so the choice of
    algorithm is not observable. */
module StableSort {

  /** `le(a, b)` holds when `a`'s sort key is not greater than `b`'s. */
  ghost predicate TotalPreorder<T(!new)>(le: (T, T) -> bool) {
    && (forall a, b :: le(a, b) || le(b, a))
    && (forall a, b, c :: le(a, b) && le(b, c) ==> le(a, c))
  }

  ghost predicate SortedBy<T>(s: seq<T>, le: (T, T) -> bool) {
    forall i, j :: 0 <= i < j < |s| ==> le(s[i], s[j])
  }

  /** `a` and `b` have equal sort keys. */
  predicate Tied<T>(a: T, b: T, le: (T, T) -> bool) {
    le(a, b) && le(b, a)
  }

  /** Number of leading elements of `s` that `e` is inserted after: the
      scan stops at the last element not greater than `e`. */
  function InsertPoint<T>(s: seq<T>, e: T, le: (T, T) -> bool): (p: nat)
    ensures p <= |s|
    ensures forall i :: p <= i < |s| ==> !le(s[i], e)
    ensures p > 0 ==> le(s[p - 1], e)
  {
    if s == [] then 0
    else if le(s[|s| - 1], e) then |s|
    else InsertPoint(s[..|s| - 1], e, le)
  }

  /** Insert `e` after every element whose key is not greater than its own. */
  function Insert<T>(s: seq<T>, e: T, le: (T, T) -> bool): (r: seq<T>)
    ensures r == s[..InsertPoint(s, e, le)] + [e] + s[InsertPoint(s, e, le)..]
    ensures multiset(r) == multiset(s) + multiset{e}
  {
    if s == [] then [e]
    else if le(s[|s| - 1], e) then
      assert s[..|s|] == s && s[|s|..] == [];
      s + [e]
    else
      var init, last := s[..|s| - 1], s[|s| - 1];
      assert s == init + [last];
      SpliceAppend(init, last, e, InsertPoint(init, e, le), Insert(init, e, le));
      Insert(init, e, le) + [last]
  }

  /** A splice of `e` at `p` into `init`, followed by `last`, is the same
      splice into `init + [last]`. */
  lemma SpliceAppend<T>(init: seq<T>, last: T, e: T, p: nat, r: seq<T>)
    requires p <= |init| && r == init[..p] + [e] + init[p..]
    ensures r + [last] == (init + [last])[..p] + [e] + (init + [last])[p..]
    ensures multiset(r + [last]) == multiset(init + [last]) + multiset{e}
  {
    var s := init + [last];
    assert s[..p] == init[..p];
    assert s[p..] == init[p..] + [last];
    assert init == init[..p] + init[p..];
  }

  /** Stable sort: each element in turn is inserted after all elements
      already placed whose key is not greater. */
  function Sort<T>(s: seq<T>, le: (T, T) -> bool): (r: seq<T>)
    ensures multiset(r) == multiset(s)
    ensures |r| == |s|
  {
    if s == [] then []
    else
      assert s == s[..|s| - 1] + [s[|s| - 1]];
      Insert(Sort(s[..|s| - 1], le), s[|s| - 1], le)
  }

  /** The elements of `s` tied with `x`, in their order in `s`. */
  function Tie<T>(s: seq<T>, x: T, le: (T, T) -> bool): seq<T> {
    if s == [] then []
    else Tie(s[..|s| - 1], x, le) + (if Tied(s[|s| - 1], x, le) then [s[|s| - 1]] else [])
  }

  /** With a sorted prefix, inserting places `e` after every element not
      greater than it and before every greater one. */
  lemma InsertSplits<T(!new)>(s: seq<T>, e: T, le: (T, T) -> bool)
    requires TotalPreorder(le) && SortedBy(s, le)
    ensures var p := InsertPoint(s, e, le);
      && (forall i :: 0 <= i < p ==> le(s[i], e))
      && (forall i :: p <= i < |s| ==> !le(s[i], e))
  {
  }

  lemma InsertSorted<T(!new)>(s: seq<T>, e: T, le: (T, T) -> bool)
    requires TotalPreorder(le) && SortedBy(s, le)
    ensures SortedBy(Insert(s, e, le), le)
  {
    InsertSplits(s, e, le);
    SplicedSorted(s, InsertPoint(s, e, le), e, le);
  }

  /** Splicing `e` into a sorted sequence between the elements not greater
      than it and the greater ones keeps it sorted. */
  lemma SplicedSorted<T(!new)>(s: seq<T>, p: nat, e: T, le: (T, T) -> bool)
    requires TotalPreorder(le) && SortedBy(s, le) && p <= |s|
    requires forall i :: 0 <= i < p ==> le(s[i], e)
    requires forall i :: p <= i < |s| ==> !le(s[i], e)
    ensures SortedBy(s[..p] + [e] + s[p..], le)
  {
    var r := s[..p] + [e] + s[p..];
    assert forall k :: 0 <= k < p ==> r[k] == s[k];
    assert r[p] == e;
    assert forall k :: p < k < |r| ==> r[k] == s[k - 1];
    forall i, j | 0 <= i < j < |r|
      ensures le(r[i], r[j])
    {
      if j < p {
        assert le(s[i], s[j]);
      } else if j == p {
        assert le(s[i], e);
      } else if i < p {
        assert le(s[i], s[j - 1]);
      } else if i == p {
        assert !le(s[j - 1], e);
      } else {
        assert le(s[i - 1], s[j - 1]);
      }
    }
  }

  lemma {:induction false} SortSorted<T(!new)>(s: seq<T>, le: (T, T) -> bool)
    requires TotalPreorder(le)
    ensures SortedBy(Sort(s, le), le)
    decreases |s|
  {
    if s != [] {
      SortSorted(s[..|s| - 1], le);
      InsertSorted(Sort(s[..|s| - 1], le), s[|s| - 1], le);
    }
  }

  /** Sorting an already sorted sequence changes nothing. */
  lemma {:induction false} SortOfSorted<T>(s: seq<T>, le: (T, T) -> bool)
    requires SortedBy(s, le)
    ensures Sort(s, le) == s
    decreases |s|
  {
    if s != [] {
      var init, last := s[..|s| - 1], s[|s| - 1];
      SortedPrefix(s, le);
      SortOfSorted(init, le);
      assert Sort(s, le) == Insert(init, last, le);
      InsertAtEnd(init, last, le);
      assert init + [last] == s;
    }
  }

  lemma SortedPrefix<T>(s: seq<T>, le: (T, T) -> bool)
    requires SortedBy(s, le) && s != []
    ensures SortedBy(s[..|s| - 1], le)
    ensures |s| > 1 ==> le(s[|s| - 2], s[|s| - 1])
  {
  }

  /** An element not smaller than the last goes at the end. */
  lemma InsertAtEnd<T>(s: seq<T>, e: T, le: (T, T) -> bool)
    requires s == [] || le(s[|s| - 1], e)
    ensures Insert(s, e, le) == s + [e]
  {
  }

  /** A sorted sequence cut in two: both parts are sorted and no element of
      the front is greater than an element of the back. */
  lemma SortedSplit<T>(s: seq<T>, k: nat, le: (T, T) -> bool)
    requires SortedBy(s, le) && k <= |s|
    ensures SortedBy(s[..k], le) && SortedBy(s[k..], le)
    ensures forall i, j :: 0 <= i < k && 0 <= j < |s| - k ==> le(s[..k][i], s[k..][j])
  {
    forall i, j | 0 <= i < k && 0 <= j < |s| - k
      ensures le(s[..k][i], s[k..][j])
    {
      assert s[..k][i] == s[i] && s[k..][j] == s[k + j];
    }
  }

  /** Cutting a sorted sequence: the front is sorted, no element of it is
      greater than one of the back, and the two parts hold every element. */
  lemma CutSorted<T>(s: seq<T>, k: nat, le: (T, T) -> bool)
    requires SortedBy(s, le) && k <= |s|
    ensures SortedBy(s[..k], le)
    ensures multiset(s[..k]) + multiset(s[k..]) == multiset(s)
    ensures forall i, j :: 0 <= i < k && 0 <= j < |s| - k ==> le(s[..k][i], s[k..][j])
  {
    SortedSplit(s, k, le);
    assert s == s[..k] + s[k..];
  }

  /** Appending one element to a sorted sequence and sorting is inserting it. */
  lemma SortAppend<T(!new)>(s: seq<T>, e: T, le: (T, T) -> bool)
    requires TotalPreorder(le) && SortedBy(s, le)
    ensures Sort(s + [e], le) == Insert(s, e, le)
  {
    assert (s + [e])[..|s|] == s;
    SortOfSorted(s, le);
  }

  /** Inserting `e` adds it at the end of its own tie class and leaves every
      other class as it was. */
  lemma {:induction false} InsertTie<T(!new)>(s: seq<T>, e: T, x: T, le: (T, T) -> bool)
    requires TotalPreorder(le)
    ensures Tie(Insert(s, e, le), x, le)
         == Tie(s, x, le) + (if Tied(e, x, le) then [e] else [])
    decreases |s|
  {
    var te := if Tied(e, x, le) then [e] else [];
    if s == [] {
      assert [e][..0] == [];
      assert Tie(Insert(s, e, le), x, le) == Tie([e], x, le) == te;
    } else if le(s[|s| - 1], e) {
      assert (s + [e])[..|s|] == s;
      assert Tie(Insert(s, e, le), x, le) == Tie(s + [e], x, le) == Tie(s, x, le) + te;
    } else {
      var init, last := s[..|s| - 1], s[|s| - 1];
      var tl := if Tied(last, x, le) then [last] else [];
      InsertTie(init, e, x, le);
      TieSnoc(Insert(init, e, le), last, x, le);
      assert Insert(s, e, le) == Insert(init, e, le) + [last];
      assert te == [] || tl == [];
      SwapSingletons(Tie(init, x, le), te, tl);
    }
  }

  /** The tie class of a longer list gains the new element if it is tied. */
  lemma TieSnoc<T>(s: seq<T>, y: T, x: T, le: (T, T) -> bool)
    ensures Tie(s + [y], x, le) == Tie(s, x, le) + (if Tied(y, x, le) then [y] else [])
  {
    assert (s + [y])[..|s|] == s;
  }

  lemma SwapSingletons<T>(a: seq<T>, p: seq<T>, q: seq<T>)
    requires p == [] || q == []
    ensures a + p + q == a + q + p
  {
  }

  /** Stability: every tie class keeps its order. */
  lemma {:induction false} SortStable<T(!new)>(s: seq<T>, x: T, le: (T, T) -> bool)
    requires TotalPreorder(le)
    ensures Tie(Sort(s, le), x, le) == Tie(s, x, le)
    decreases |s|
  {
    if s != [] {
      SortStable(s[..|s| - 1], x, le);
      InsertTie(Sort(s[..|s| - 1], le), s[|s| - 1], x, le);
    }
  }

  lemma TieOfLast<T(!new)>(s: seq<T>, le: (T, T) -> bool)
    requires TotalPreorder(le) && |s| > 0
    ensures var t := Tie(s, s[|s| - 1], le); |t| > 0 && t[|t| - 1] == s[|s| - 1]
  {
  }

  lemma {:induction false} TieMember<T(!new)>(s: seq<T>, x: T, le: (T, T) -> bool)
    requires |Tie(s, x, le)| > 0
    ensures exists i :: 0 <= i < |s| && Tied(s[i], x, le)
    decreases |s|
  {
    if !Tied(s[|s| - 1], x, le) {
      TieMember(s[..|s| - 1], x, le);
      var i :| 0 <= i < |s| - 1 && Tied(s[..|s| - 1][i], x, le);
      assert s[i] == s[..|s| - 1][i];
    }
  }

  /** Two sorted sequences whose tie classes agree are equal. */
  lemma {:induction false} SortedTiesDetermine<T(!new)>(t: seq<T>, u: seq<T>, le: (T, T) -> bool)
    requires TotalPreorder(le) && SortedBy(t, le) && SortedBy(u, le)
    requires forall x :: Tie(t, x, le) == Tie(u, x, le)
    ensures t == u
    decreases |t| + |u|
  {
    if t == [] && u == [] {
    } else if t == [] {
      TieOfLast(u, le);
      assert false;
    } else if u == [] {
      TieOfLast(t, le);
      assert false;
    } else {
      var a, b := t[|t| - 1], u[|u| - 1];
      TieOfLast(t, le);
      TieOfLast(u, le);
      assert le(a, b) by {
        TieMember(u, a, le);
        var i :| 0 <= i < |u| && Tied(u[i], a, le);
        if i < |u| - 1 { assert le(u[i], b); }
      }
      assert le(b, a) by {
        TieMember(t, b, le);
        var i :| 0 <= i < |t| && Tied(t[i], b, le);
        if i < |t| - 1 { assert le(t[i], a); }
      }
      assert Tie(u, a, le)[|Tie(u, a, le)| - 1] == b;
      assert a == b;
      var t', u' := t[..|t| - 1], u[..|u| - 1];
      forall x
        ensures Tie(t', x, le) == Tie(u', x, le)
      {
        var extra := if Tied(a, x, le) then [a] else [];
        assert Tie(t, x, le) == Tie(t', x, le) + extra;
        assert Tie(u, x, le) == Tie(u', x, le) + extra;
        assert Tie(t', x, le) == Tie(t, x, le)[..|Tie(t, x, le)| - |extra|];
        assert Tie(u', x, le) == Tie(u, x, le)[..|Tie(u, x, le)| - |extra|];
      }
      SortedTiesDetermine(t', u', le);
      assert t == t' + [a] && u == u' + [b];
    }
  }

  /** Any sorted sequence that keeps every tie class of `s` in order is
      `Sort(s)`: all stable sorts agree. */
  lemma SortUnique<T(!new)>(s: seq<T>, t: seq<T>, le: (T, T) -> bool)
    requires TotalPreorder(le) && SortedBy(t, le)
    requires forall x :: Tie(t, x, le) == Tie(s, x, le)
    ensures t == Sort(s, le)
  {
    SortSorted(s, le);
    forall x
      ensures Tie(t, x, le) == Tie(Sort(s, le), x, le)
    {
      SortStable(s, x, le);
    }
    SortedTiesDetermine(t, Sort(s, le), le);
  }
}

=== FILE: text.dfy ===
/** The text layer of the record files: fixed-width lines of `;`-separated
    fields. Every writer produces `content.ljust(500) + "\n"`; every reader
    takes `line.rstrip("\n").split(";")`. */
module Text {

  /** Width every record line is padded to, before its line terminator. */
  const Width: nat := 500

  /** Python's `str.isspace`, the characters `str.strip()` removes. */
  predicate IsSpace(c: char) {
    || c == ' ' || c == '\t' || c == '\n' || c == '\r' || c == '\U{0B}' || c == '\U{0C}'
    || ('\U{1C}' <= c <= '\U{1F}') || c == '\U{85}' || c == '\U{A0}' || c == '\U{1680}'
    || ('\U{2000}' <= c <= '\U{200A}') || c == '\U{2028}' || c == '\U{2029}'
    || c == '\U{202F}' || c == '\U{205F}' || c == '\U{3000}'
  }

  predicate EndsWithNewline(s: string) {
    |s| > 0 && s[|s| - 1] == '\n'
  }

  /** `a` is `b` followed by nothing but blanks. */
  predicate PaddedFrom(a: string, b: string) {
    |b| <= |a| && a[..|b|] == b && forall i :: |b| <= i < |a| ==> a[i] == ' '
  }

  function Spaces(n: nat): (r: string)
    ensures |r| == n
    ensures forall i :: 0 <= i < n ==> r[i] == ' '
  {
    seq(n, _ => ' ')
  }

  /** Number of blanks `ljust(Width)` adds to `content`. */
  function PadLength(content: string): nat {
    if |content| < Width then Width - |content| else 0
  }

  /** `s.ljust(width)` */
  function LJust(s: string, width: nat): (r: string)
    ensures |r| == if |s| < width then width else |s|
    ensures PaddedFrom(r, s)
  {
    if |s| < width then s + Spaces(width - |s|) else s
  }

  /** The line every writer of the store produces for `content`. */
  function Record(content: string): (r: string)
    ensures |r| == (if |content| < Width then Width else |content|) + 1
    ensures r[|r| - 1] == '\n'
    ensures PaddedFrom(r[..|r| - 1], content)
    ensures r[..|r| - 1] == content + Spaces(PadLength(content))
  {
    LJust(content, Width) + "\n"
  }

  /** `s.rstrip("\n")` */
  function RStripNewlines(s: string): string {
    if EndsWithNewline(s) then RStripNewlines(s[..|s| - 1]) else s
  }

  /** `s.rstrip()` */
  function RStripSpace(s: string): string {
    if |s| > 0 && IsSpace(s[|s| - 1]) then RStripSpace(s[..|s| - 1]) else s
  }

  /** `s.lstrip()` */
  function LStripSpace(s: string): string {
    if |s| > 0 && IsSpace(s[0]) then LStripSpace(s[1..]) else s
  }

  /** `s.strip()` */
  function Strip(s: string): string {
    LStripSpace(RStripSpace(s))
  }

  /** `";".join(parts)` */
  function Join(parts: seq<string>): string {
    if |parts| == 0 then ""
    else if |parts| == 1 then parts[0]
    else parts[0] + ";" + Join(parts[1..])
  }

  predicate NoSemicolon(parts: seq<string>) {
    forall i :: 0 <= i < |parts| ==> ';' !in parts[i]
  }

  /** `s.split(";")` */
  function Split(s: string): (parts: seq<string>)
    ensures |parts| >= 1
  {
    if s == [] then [[]]
    else
      var rest := Split(s[1..]);
      if s[0] == ';' then [[]] + rest
      else [[s[0]] + rest[0]] + rest[1..]
  }

  /** How every reader of a record file sees one line. */
  function Fields(line: string): (parts: seq<string>)
    ensures |parts| >= 1
  {
    Split(RStripNewlines(line))
  }

  /** `rstrip("\n")` removes a suffix of line terminators, all of them. */
  lemma {:induction false} RStripNewlinesSpec(s: string)
    ensures var r := RStripNewlines(s);
      && |r| <= |s| && r == s[..|r|]
      && (forall i :: |r| <= i < |s| ==> s[i] == '\n')
      && !EndsWithNewline(r)
    decreases |s|
  {
    if EndsWithNewline(s) {
      RStripNewlinesSpec(s[..|s| - 1]);
    }
  }

  /** `rstrip()` removes a suffix of whitespace, all of it. */
  lemma {:induction false} RStripSpaceSpec(s: string)
    ensures var r := RStripSpace(s);
      && |r| <= |s| && r == s[..|r|]
      && (forall i :: |r| <= i < |s| ==> IsSpace(s[i]))
      && (|r| == 0 || !IsSpace(r[|r| - 1]))
    decreases |s|
  {
    if |s| > 0 && IsSpace(s[|s| - 1]) {
      RStripSpaceSpec(s[..|s| - 1]);
    }
  }

  /** `lstrip()` removes a prefix of whitespace, all of it. */
  lemma {:induction false} LStripSpaceSpec(s: string)
    ensures var r := LStripSpace(s);
      && |r| <= |s| && r == s[|s| - |r|..]
      && (forall i :: 0 <= i < |s| - |r| ==> IsSpace(s[i]))
      && (|r| == 0 || !IsSpace(r[0]))
    decreases |s|
  {
    if |s| > 0 && IsSpace(s[0]) {
      LStripSpaceSpec(s[1..]);
    }
  }

  /** `strip()` yields the stretch of `s` between a prefix and a suffix of
      whitespace, and that stretch neither starts nor ends with whitespace. */
  lemma StripSpec(s: string)
    ensures var r, hi := Strip(s), |RStripSpace(s)|;
      && |r| <= hi <= |s| && r == s[hi - |r|..hi]
      && (forall i :: 0 <= i < hi - |r| ==> IsSpace(s[i]))
      && (forall i :: hi <= i < |s| ==> IsSpace(s[i]))
      && (|r| == 0 || (!IsSpace(r[0]) && !IsSpace(r[|r| - 1])))
  {
    var m := RStripSpace(s);
    RStripSpaceSpec(s);
    LStripSpaceSpec(m);
    var r := LStripSpace(m);
    var lo := |m| - |r|;
    assert s[lo..|m|] == m[lo..] == r;
    forall i | 0 <= i < lo
      ensures IsSpace(s[i])
    {
      assert s[i] == m[i];
    }
    if |r| > 0 {
      assert r[|r| - 1] == m[|m| - 1];
    }
  }

  /** `strip()` adds no character and leaves no line terminator at the end. */
  lemma StripPlain(s: string)
    ensures forall c :: c in Strip(s) ==> c in s
    ensures !EndsWithNewline(Strip(s))
  {
    StripSpec(s);
    var r, hi := Strip(s), |RStripSpace(s)|;
    forall c | c in r
      ensures c in s
    {
      var i :| 0 <= i < |r| && r[i] == c;
      assert s[hi - |r| + i] == c;
    }
  }

  /** `split(";")` always yields at least one part, no part holds the
      separator, and joining the parts gives `s` back. */
  lemma {:induction false} SplitSpec(s: string)
    ensures NoSemicolon(Split(s))
    ensures Join(Split(s)) == s
    decreases |s|
  {
    if s != [] {
      var rest := Split(s[1..]);
      SplitSpec(s[1..]);
      if s[0] == ';' {
        assert s == ";" + Join(rest);
      } else {
        var parts := [[s[0]] + rest[0]] + rest[1..];
        assert parts[1..] == rest[1..];
        assert s == [s[0]] + s[1..];
      }
    }
  }

  /** Fields a writer can join and pad without the reader seeing anything
      but the same fields: no separator inside, and the last one does not
      end in a line terminator that `rstrip("\n")` would eat. */
  predicate Encodable(parts: seq<string>) {
    |parts| >= 1 && NoSemicolon(parts) && !EndsWithNewline(parts[|parts| - 1])
  }

  lemma {:induction false} SplitNoSemicolon(x: string)
    requires ';' !in x
    ensures Split(x) == [x]
    decreases |x|
  {
    if x != [] {
      SplitNoSemicolon(x[1..]);
      assert [x[0]] + x[1..] == x;
    }
  }

  lemma {:induction false} SplitPrefix(x: string, rest: string)
    requires ';' !in x
    ensures Split(x + ";" + rest) == [x] + Split(rest)
    decreases |x|
  {
    if x == [] {
      assert x + ";" + rest == ";" + rest;
      assert (";" + rest)[1..] == rest;
    } else {
      var s := x + ";" + rest;
      assert s[1..] == x[1..] + ";" + rest;
      SplitPrefix(x[1..], rest);
      assert [s[0]] + x[1..] == x;
    }
  }

  /** Splitting undoes joining, as long as no part holds the separator. */
  lemma {:induction false} SplitJoin(parts: seq<string>)
    requires |parts| >= 1 && NoSemicolon(parts)
    ensures Split(Join(parts)) == parts
    decreases |parts|
  {
    if |parts| == 1 {
      SplitNoSemicolon(parts[0]);
    } else {
      assert ';' !in parts[0];
      SplitPrefix(parts[0], Join(parts[1..]));
      SplitJoin(parts[1..]);
      assert [parts[0]] + parts[1..] == parts;
    }
  }

  /** Appending to the joined text appends to the last part. */
  lemma {:induction false} JoinExtendLast(parts: seq<string>, x: string)
    requires |parts| >= 1
    ensures Join(parts[|parts| - 1 := parts[|parts| - 1] + x]) == Join(parts) + x
    decreases |parts|
  {
    var q := parts[|parts| - 1 := parts[|parts| - 1] + x];
    if |parts| > 1 {
      JoinExtendLast(parts[1..], x);
      assert q[1..] == parts[1..][|parts| - 2 := parts[|parts| - 1] + x];
    }
  }

  /** The joined text ends with the last part's last character. */
  lemma {:induction false} JoinEndsWithLast(parts: seq<string>)
    requires |parts| >= 1 && |parts[|parts| - 1]| > 0
    ensures |Join(parts)| > 0
    ensures Join(parts)[|Join(parts)| - 1] == parts[|parts| - 1][|parts[|parts| - 1]| - 1]
    decreases |parts|
  {
    if |parts| > 1 {
      JoinEndsWithLast(parts[1..]);
    }
  }

  lemma JoinNoTrailingNewline(parts: seq<string>)
    requires Encodable(parts)
    ensures !EndsWithNewline(Join(parts))
  {
    if |parts[|parts| - 1]| > 0 {
      JoinEndsWithLast(parts);
    } else if |parts| > 1 {
      JoinTrailingSemicolon(parts);
    }
  }

  lemma {:induction false} JoinTrailingSemicolon(parts: seq<string>)
    requires |parts| >= 2 && parts[|parts| - 1] == []
    ensures EndsWithNewline(Join(parts)) == false
    decreases |parts|
  {
    if |parts| == 2 {
      assert Join(parts) == parts[0] + ";";
    } else {
      JoinTrailingSemicolon(parts[1..]);
    }
  }

  /** The fields any line splits into can be written back unchanged. */
  lemma FieldsEncodable(line: string)
    ensures Encodable(Fields(line))
  {
    var s := RStripNewlines(line);
    var parts := Split(s);
    var last := parts[|parts| - 1];
    RStripNewlinesSpec(line);
    SplitSpec(s);
    if |last| > 0 {
      JoinEndsWithLast(parts);
    }
  }

  lemma RStripNewlinesOnce(x: string)
    requires !EndsWithNewline(x)
    ensures RStripNewlines(x + "\n") == x
  {
    assert (x + "\n")[..|x|] == x;
  }

  /** Reading back a written record yields the written fields, with the
      padding attached to the last one. */
  lemma RecordFields(parts: seq<string>)
    requires Encodable(parts)
    ensures Fields(Record(Join(parts)))
         == parts[|parts| - 1 := parts[|parts| - 1] + Spaces(PadLength(Join(parts)))]
  {
    var c := Join(parts);
    var pad := Spaces(PadLength(c));
    var padded := parts[|parts| - 1 := parts[|parts| - 1] + pad];
    JoinNoTrailingNewline(parts);
    assert LJust(c, Width) == c + pad;
    if |pad| > 0 {
      assert !EndsWithNewline(c + pad) by { assert (c + pad)[|c + pad| - 1] == ' '; }
    } else {
      assert c + pad == c;
    }
    RStripNewlinesOnce(c + pad);
    assert Record(c) == (c + pad) + "\n";
    JoinExtendLast(parts, pad);
    assert ';' !in pad;
    assert NoSemicolon(padded);
    SplitJoin(padded);
  }

  /** Stripping a value that has no blanks at its ends, followed by blanks,
      yields the value. */
  lemma StripPadded(core: string, pad: string)
    requires |core| > 0 && !IsSpace(core[0]) && !IsSpace(core[|core| - 1])
    requires forall i :: 0 <= i < |pad| ==> IsSpace(pad[i])
    ensures Strip(core + pad) == core
  {
    RStripSpacePadded(core, pad);
  }

  lemma {:induction false} RStripSpacePadded(core: string, pad: string)
    requires |core| > 0 && !IsSpace(core[|core| - 1])
    requires forall i :: 0 <= i < |pad| ==> IsSpace(pad[i])
    ensures RStripSpace(core + pad) == core
    decreases |pad|
  {
    if |pad| == 0 {
      assert core + pad == core;
    } else {
      var s := core + pad;
      assert s[..|s| - 1] == core + pad[..|pad| - 1];
      RStripSpacePadded(core, pad[..|pad| - 1]);
    }
  }

  /** `strip()` of a stripped string changes nothing. */
  lemma StripIdempotent(s: string)
    ensures Strip(Strip(s)) == Strip(s)
  {
    var r := Strip(s);
    StripSpec(s);
    if |r| > 0 {
      assert r + "" == r;
      StripPadded(r, "");
    } else {
      StripSpec(r);
    }
  }

  /** Padding a stripped string and stripping it again gives it back. */
  lemma StripPaddedStrip(a: string, x: string)
    requires PaddedFrom(a, Strip(x))
    ensures Strip(a) == Strip(x)
  {
    var core := Strip(x);
    assert a == core + a[|core|..];
    StripIgnoresPadding(core, a[|core|..]);
    StripIdempotent(x);
  }

  lemma StripIgnoresPadding(x: string, pad: string)
    requires forall i :: 0 <= i < |pad| ==> IsSpace(pad[i])
    ensures Strip(x + pad) == Strip(x)
  {
    RStripSpaceIgnoresPadding(x, pad);
  }

  lemma {:induction false} RStripSpaceIgnoresPadding(x: string, pad: string)
    requires forall i :: 0 <= i < |pad| ==> IsSpace(pad[i])
    ensures RStripSpace(x + pad) == RStripSpace(x)
    decreases |pad|
  {
    if |pad| == 0 {
      assert x + pad == x;
    } else {
      var s := x + pad;
      assert s[..|s| - 1] == x + pad[..|pad| - 1];
      RStripSpaceIgnoresPadding(x, pad[..|pad| - 1]);
    }
  }
}

=== FILE: top_models.dfy ===
/** `top_models_by_sales`: count the sales of each model (a sale counts when
    its VIN is a car's VIN), average each model's car prices, rank by count
    and then by average, both descending, keep the first three and look up
    their names. */
module TopModels {
  import opened Results
  import opened Text
  import opened Numbers
  import opened StableSort
  import opened SortedIndex
  import opened Records
  import opened Scans
  import opened CarService

  /** `vin2model[parts[0]] = int(parts[1])` for one car line. */
  function VinModelOf(line: string): Result<(string, int)> {
    var f := Fields(line);
    if |f| < 2 then Err(IndexOutOfRange)
    else
      match ParseInt(f[1])
      case None => Err(Unparsable)
      case Some(m) => Ok((f[0], m))
  }

  /** The dict the pairs build, in order: a later pair for the same key
      overrides an earlier one. */
  function ToMap(pairs: seq<(string, int)>): (r: map<string, int>)
    ensures forall k :: k in r <==> exists i :: 0 <= i < |pairs| && pairs[i].0 == k
  {
    if pairs == [] then map[]
    else
      var init, last := pairs[..|pairs| - 1], pairs[|pairs| - 1];
      assert forall i :: 0 <= i < |init| ==> init[i] == pairs[i];
      ToMap(init)[last.0 := last.1]
  }

  /** The last pair for a key decides its value. */
  lemma {:induction false} ToMapLastWins(pairs: seq<(string, int)>, i: nat)
    requires i < |pairs|
    requires forall j :: i < j < |pairs| ==> pairs[j].0 != pairs[i].0
    ensures pairs[i].0 in ToMap(pairs) && ToMap(pairs)[pairs[i].0] == pairs[i].1
    decreases |pairs|
  {
    if i < |pairs| - 1 {
      ToMapLastWins(pairs[..|pairs| - 1], i);
    }
  }

  /** Every value of the dict comes from one of the pairs. */
  lemma {:induction false} ToMapValue(pairs: seq<(string, int)>, k: string)
    requires k in ToMap(pairs)
    ensures exists i :: 0 <= i < |pairs| && pairs[i] == (k, ToMap(pairs)[k])
    decreases |pairs|
  {
    var init, last := pairs[..|pairs| - 1], pairs[|pairs| - 1];
    if last.0 != k {
      ToMapValue(init, k);
      var i :| 0 <= i < |init| && init[i] == (k, ToMap(init)[k]);
      assert pairs[i] == init[i];
    }
  }

  /** `vin2model`, built over `cars.txt`. */
  function VinModels(cars: seq<string>): Result<map<string, int>> {
    var pairs :- Traverse(cars, VinModelOf);
    Ok(ToMap(pairs))
  }

  /** `vin2model.get(parts[1])` for one sales line. */
  function SaleModel(vm: map<string, int>): string -> Result<Option<int>> {
    (line: string) =>
      var f := Fields(line);
      if |f| < 2 then Err(IndexOutOfRange)
      else Ok(if f[1] in vm then Some(vm[f[1]]) else None)
  }

  /** The present values, in order. */
  function Present(xs: seq<Option<int>>): (r: seq<int>)
    ensures forall m :: m in r <==> Some(m) in xs
  {
    if xs == [] then []
    else
      var init, last := xs[..|xs| - 1], xs[|xs| - 1];
      assert xs == init + [last];
      Present(init) + (if last.Some? then [last.value] else [])
  }

  /** The first two loops: the model of every sale they count, one entry
      per counted sale, in file order. */
  function SoldModels(st: Store): Result<seq<int>> {
    var vm :- VinModels(st.cars.lines);
    var xs :- Traverse(st.sales.lines, SaleModel(vm));
    Ok(Present(xs))
  }

  /** A model is counted exactly when some sales line's VIN field is the VIN
      of a car line of that model (the last such car line, if the VIN occurs
      twice). */
  lemma CountedSales(st: Store, m: int)
    requires SoldModels(st).Ok?
    ensures var vm := VinModels(st.cars.lines).value;
      m in SoldModels(st).value <==>
        exists j :: 0 <= j < |st.sales.lines| && |Fields(st.sales.lines[j])| >= 2
          && Fields(st.sales.lines[j])[1] in vm && vm[Fields(st.sales.lines[j])[1]] == m
  {
    var vm := VinModels(st.cars.lines).value;
    var xs := Traverse(st.sales.lines, SaleModel(vm)).value;
    if m in SoldModels(st).value {
      var j :| 0 <= j < |xs| && xs[j] == Some(m);
      assert SaleModel(vm)(st.sales.lines[j]) == Ok(xs[j]);
    }
    forall j | 0 <= j < |st.sales.lines| && |Fields(st.sales.lines[j])| >= 2
                 && Fields(st.sales.lines[j])[1] in vm && vm[Fields(st.sales.lines[j])[1]] == m
      ensures m in SoldModels(st).value
    {
      assert SaleModel(vm)(st.sales.lines[j]) == Ok(xs[j]);
      assert Some(m) in xs;
    }
  }

  /** One entry of the `counts` dict. */
  datatype Tallied = Tallied(model: int, sales: nat)

  /** `counts[m] = counts.get(m, 0) + 1`: a dict keeps the place of a key it
      already holds and appends a new key at the end. */
  function Bump(t: seq<Tallied>, m: int): seq<Tallied> {
    if t == [] then [Tallied(m, 1)]
    else if t[0].model == m then [Tallied(m, t[0].sales + 1)] + t[1..]
    else [t[0]] + Bump(t[1..], m)
  }

  /** `counts` after the loop over the sold models. */
  function Tally(ms: seq<int>): seq<Tallied> {
    if ms == [] then [] else Bump(Tally(ms[..|ms| - 1]), ms[|ms| - 1])
  }

  /** The keys of a tally, in order. */
  function Keys(t: seq<Tallied>): (r: seq<int>)
    ensures |r| == |t| && forall i :: 0 <= i < |t| ==> r[i] == t[i].model
  {
    if t == [] then [] else [t[0].model] + Keys(t[1..])
  }

  /** `counts.get(m, 0)` */
  function CountOf(t: seq<Tallied>, m: int): nat {
    if t == [] then 0 else if t[0].model == m then t[0].sales else CountOf(t[1..], m)
  }

  /** The distinct elements of `ms`, each at its first occurrence. */
  function FirstOccurrences(ms: seq<int>): seq<int> {
    if ms == [] then []
    else
      var init, last := ms[..|ms| - 1], ms[|ms| - 1];
      FirstOccurrences(init) + (if last in init then [] else [last])
  }

  lemma {:induction false} BumpKeys(t: seq<Tallied>, m: int)
    ensures Keys(Bump(t, m)) == Keys(t) + (if m in Keys(t) then [] else [m])
    decreases |t|
  {
    if t != [] && t[0].model != m {
      BumpKeys(t[1..], m);
      assert Keys(t) == [t[0].model] + Keys(t[1..]);
    }
  }

  lemma {:induction false} BumpCount(t: seq<Tallied>, m: int, x: int)
    ensures CountOf(Bump(t, m), x) == CountOf(t, x) + (if x == m then 1 else 0)
    decreases |t|
  {
    if t != [] && t[0].model != m {
      BumpCount(t[1..], m, x);
    }
  }

  /** The keys of `counts` are the counted models in first-occurrence order. */
  lemma {:induction false} TallyKeys(ms: seq<int>)
    ensures Keys(Tally(ms)) == FirstOccurrences(ms)
    ensures forall m :: m in Keys(Tally(ms)) <==> m in ms
    decreases |ms|
  {
    if ms != [] {
      var init, last := ms[..|ms| - 1], ms[|ms| - 1];
      TallyKeys(init);
      BumpKeys(Tally(init), last);
      assert ms == init + [last];
    }
  }

  /** `counts[m]` is the number of counted sales of `m`. */
  lemma {:induction false} TallyCount(ms: seq<int>, m: int)
    ensures CountOf(Tally(ms), m) == multiset(ms)[m]
    decreases |ms|
  {
    if ms != [] {
      var init, last := ms[..|ms| - 1], ms[|ms| - 1];
      TallyCount(init, m);
      BumpCount(Tally(init), last, m);
      assert ms == init + [last];
    }
  }

  /** `FirstOccurrences` lists every element once, and an element that occurs
      first earlier comes earlier. */
  lemma {:induction false} FirstOccurrencesSpec(ms: seq<int>)
    ensures forall m :: m in FirstOccurrences(ms) <==> m in ms
    ensures forall i, j :: 0 <= i < j < |FirstOccurrences(ms)| ==>
              FirstOccurrences(ms)[i] != FirstOccurrences(ms)[j]
    decreases |ms|
  {
    if ms != [] {
      var init, last := ms[..|ms| - 1], ms[|ms| - 1];
      FirstOccurrencesSpec(init);
      assert ms == init + [last];
    }
  }

  /** A key's entry in the tally holds its count. */
  lemma {:induction false} CountOfDistinct(t: seq<Tallied>, i: nat)
    requires i < |t|
    requires forall a, b :: 0 <= a < b < |t| ==> t[a].model != t[b].model
    ensures CountOf(t, t[i].model) == t[i].sales
    decreases |t|
  {
    if i > 0 {
      CountOfDistinct(t[1..], i - 1);
    }
  }

  /** `m = int(parts[1]); ... Decimal(parts[2])` for one car line. */
  datatype Priced = Priced(model: int, price: int)

  function CarPrice(line: string): Result<Priced> {
    var f := Fields(line);
    if |f| < 2 then Err(IndexOutOfRange)
    else
      match ParseInt(f[1])
      case None => Err(Unparsable)
      case Some(m) =>
        if |f| < 3 then Err(IndexOutOfRange)
        else
          match ParseInt(f[2])
          case None => Err(Unparsable)
          case Some(p) => Ok(Priced(m, p))
  }

  /** `price_sum[m]` */
  function PriceSum(ps: seq<Priced>, m: int): int {
    if ps == [] then 0
    else PriceSum(ps[..|ps| - 1], m) + (if ps[|ps| - 1].model == m then ps[|ps| - 1].price else 0)
  }

  /** `count_sum[m]` */
  function CarCount(ps: seq<Priced>, m: int): nat {
    if ps == [] then 0
    else CarCount(ps[..|ps| - 1], m) + (if ps[|ps| - 1].model == m then 1 else 0)
  }

  /** `avg[m]`, exactly. */
  function Average(ps: seq<Priced>, m: int): real
    requires CarCount(ps, m) > 0
  {
    PriceSum(ps, m) as real / CarCount(ps, m) as real
  }

  lemma {:induction false} CarCountPositive(ps: seq<Priced>, i: nat)
    requires i < |ps|
    ensures CarCount(ps, ps[i].model) > 0
    decreases |ps|
  {
    if i < |ps| - 1 {
      CarCountPositive(ps[..|ps| - 1], i);
    }
  }

  /** The average lies between the lowest and the highest price of the
      model's cars. */
  lemma AverageWithin(ps: seq<Priced>, m: int, lo: int, hi: int)
    requires CarCount(ps, m) > 0
    requires forall i :: 0 <= i < |ps| && ps[i].model == m ==> lo <= ps[i].price <= hi
    ensures lo as real <= Average(ps, m) <= hi as real
  {
    SumWithin(ps, m, lo, hi);
    QuotientWithin(PriceSum(ps, m) as real, CarCount(ps, m) as real, lo as real, hi as real);
  }

  lemma QuotientWithin(s: real, n: real, lo: real, hi: real)
    requires n > 0.0 && lo * n <= s <= hi * n
    ensures lo <= s / n <= hi
  {
    assert s / n * n == s;
  }

  lemma {:induction false} SumWithin(ps: seq<Priced>, m: int, lo: int, hi: int)
    requires forall i :: 0 <= i < |ps| && ps[i].model == m ==> lo <= ps[i].price <= hi
    ensures lo * CarCount(ps, m) <= PriceSum(ps, m) <= hi * CarCount(ps, m)
    decreases |ps|
  {
    if ps != [] {
      var init, last := ps[..|ps| - 1], ps[|ps| - 1];
      assert forall i :: 0 <= i < |init| ==> init[i] == ps[i];
      SumWithin(init, m, lo, hi);
      var c := CarCount(init, m);
      if last.model == m {
        assert CarCount(ps, m) == c + 1;
        assert PriceSum(ps, m) == PriceSum(init, m) + last.price;
        MulSucc(lo, c);
        MulSucc(hi, c);
      } else {
        assert CarCount(ps, m) == c && PriceSum(ps, m) == PriceSum(init, m);
      }
    }
  }

  lemma MulSucc(a: int, c: int)
    ensures a * (c + 1) == a * c + a
  {
  }

  /** One row of the ranking: model, number of sales, average price. */
  datatype Ranked = Ranked(model: int, sales: nat, avg: real)

  /** The order of `key=lambda x: (-x[1], -avg[x[0]])`: more sales first,
      then the higher average. */
  predicate RankLe(a: Ranked, b: Ranked) {
    a.sales > b.sales || (a.sales == b.sales && a.avg >= b.avg)
  }

  lemma RankOrder()
    ensures TotalPreorder(RankLe)
  {
  }

  function Min(a: nat, b: nat): nat {
    if a < b then a else b
  }

  /** `sorted(..., key=...)[:3]` */
  function Top3(stats: seq<Ranked>): seq<Ranked> {
    var sorted := Sort(stats, RankLe);
    sorted[..Min(3, |sorted|)]
  }

  /** The ranked rows are the best three in order: every row left out ranks
      no better than every row kept, and nothing is invented or lost. */
  lemma TopThree(stats: seq<Ranked>)
    ensures var top := Top3(stats);
      var rest := Sort(stats, RankLe)[|top|..];
      && |top| == Min(3, |stats|)
      && SortedBy(top, RankLe)
      && multiset(top) + multiset(rest) == multiset(stats)
      && (forall i, j :: 0 <= i < |top| && 0 <= j < |rest| ==> RankLe(top[i], rest[j]))
  {
    var sorted := Sort(stats, RankLe);
    RankSorted(stats);
    CutSorted(sorted, Min(3, |sorted|), RankLe);
  }

  lemma RankSorted(stats: seq<Ranked>)
    ensures SortedBy(Sort(stats, RankLe), RankLe)
  {
    RankOrder();
    SortSorted(stats, RankLe);
  }

  /** Rows that tie on sales and average keep their order in `counts`: the
      sort is stable. */
  lemma RankStable(stats: seq<Ranked>, x: Ranked)
    ensures Tie(Sort(stats, RankLe), x, RankLe) == Tie(stats, x, RankLe)
  {
    RankOrder();
    SortStable(stats, x, RankLe);
  }

  /** The ranked rows for the tally, each with its model's average. */
  function Stats(t: seq<Tallied>, ps: seq<Priced>): seq<Ranked>
    requires forall i :: 0 <= i < |t| ==> CarCount(ps, t[i].model) > 0
  {
    seq(|t|, i requires 0 <= i < |t| => Ranked(t[i].model, t[i].sales, Average(ps, t[i].model)))
  }

  /** The third loop: model and price of every car line. */
  function Prices(st: Store): Result<seq<Priced>> {
    Traverse(st.cars.lines, CarPrice)
  }

  /** Every counted model has an average: its sales were counted through the
      car line that gave its model, and that line also adds to `count_sum`. */
  lemma CountedModelsHaveCars(lines: seq<string>, pairs: seq<(string, int)>, ps: seq<Priced>,
                              sales: seq<Option<int>>, m: int)
    requires Traverse(lines, VinModelOf) == Ok(pairs)
    requires Traverse(lines, CarPrice) == Ok(ps)
    requires forall j :: 0 <= j < |sales| && sales[j].Some? ==> sales[j].value in ToMap(pairs).Values
    requires m in Present(sales)
    ensures CarCount(ps, m) > 0
  {
    var j :| 0 <= j < |sales| && sales[j] == Some(m);
    var k :| k in ToMap(pairs) && ToMap(pairs)[k] == m;
    ToMapValue(pairs, k);
    var i :| 0 <= i < |pairs| && pairs[i] == (k, m);
    SameLineModel(lines[i], pairs[i], ps[i]);
    CarCountPositive(ps, i);
  }

  /** The second loop and the third read a car line's model the same way. */
  lemma SameLineModel(line: string, pair: (string, int), p: Priced)
    requires VinModelOf(line) == Ok(pair) && CarPrice(line) == Ok(p)
    ensures p.model == pair.1
  {
  }

  lemma SaleModelsAreValues(lines: seq<string>, vm: map<string, int>, xs: seq<Option<int>>)
    requires Traverse(lines, SaleModel(vm)) == Ok(xs)
    ensures forall j :: 0 <= j < |xs| && xs[j].Some? ==> xs[j].value in vm.Values
  {
    forall j | 0 <= j < |xs| && xs[j].Some?
      ensures xs[j].value in vm.Values
    {
      assert SaleModel(vm)(lines[j]) == Ok(xs[j]);
      var f := Fields(lines[j]);
      assert f[1] in vm && vm[f[1]] == xs[j].value;
    }
  }

  /** Every counted model has an entry in `avg`. */
  lemma SoldModelsHaveCars(st: Store)
    requires SoldModels(st).Ok? && Prices(st).Ok?
    ensures forall m :: m in SoldModels(st).value ==> CarCount(Prices(st).value, m) > 0
  {
    var pairs := Traverse(st.cars.lines, VinModelOf).value;
    var xs := Traverse(st.sales.lines, SaleModel(ToMap(pairs))).value;
    SaleModelsAreValues(st.sales.lines, ToMap(pairs), xs);
    forall m | m in SoldModels(st).value
      ensures CarCount(Prices(st).value, m) > 0
    {
      CountedModelsHaveCars(st.cars.lines, pairs, Prices(st).value, xs, m);
    }
  }

  lemma TallyHasCars(ms: seq<int>, ps: seq<Priced>)
    requires forall m :: m in ms ==> CarCount(ps, m) > 0
    ensures forall i :: 0 <= i < |Tally(ms)| ==> CarCount(ps, Tally(ms)[i].model) > 0
  {
    TallyKeys(ms);
    forall i | 0 <= i < |Tally(ms)|
      ensures CarCount(ps, Tally(ms)[i].model) > 0
    {
      assert Keys(Tally(ms))[i] in ms;
    }
  }

  /** The three best-selling models as the loops and the sort leave them,
      before their names are looked up. */
  function Ranking(st: Store): (r: Result<seq<Ranked>>)
    ensures r.Ok? ==> |r.value| <= 3 && SortedBy(r.value, RankLe)
    ensures r.Ok? ==> forall i :: 0 <= i < |r.value| ==> r.value[i].sales > 0
  {
    var ms :- SoldModels(st);
    var ps :- Prices(st);
    SoldModelsHaveCars(st);
    TallyHasCars(ms, ps);
    RankedSold(ms, ps);
    Ok(Top3(Stats(Tally(ms), ps)))
  }

  /** The ranked rows are sorted, at most three, and each has sales. */
  lemma RankedSold(ms: seq<int>, ps: seq<Priced>)
    requires forall i :: 0 <= i < |Tally(ms)| ==> CarCount(ps, Tally(ms)[i].model) > 0
    ensures var top := Top3(Stats(Tally(ms), ps));
      && |top| <= 3 && SortedBy(top, RankLe)
      && forall i :: 0 <= i < |top| ==> top[i].sales > 0
  {
    var stats := Stats(Tally(ms), ps);
    TallyPositive(ms);
    TopThree(stats);
    var top := Top3(stats);
    forall i | 0 <= i < |top|
      ensures top[i].sales > 0
    {
      TopMember(stats, top[i]);
    }
  }

  /** Each row of the ranking has its model's number of counted sales and
      its model's average car price. */
  lemma RankingCounts(st: Store)
    requires Ranking(st).Ok?
    ensures SoldModels(st).Ok? && Prices(st).Ok?
    ensures forall x :: x in Ranking(st).value ==>
              && x.sales == multiset(SoldModels(st).value)[x.model]
              && CarCount(Prices(st).value, x.model) > 0
              && x.avg == Average(Prices(st).value, x.model)
  {
    var ms, ps := SoldModels(st).value, Prices(st).value;
    SoldModelsHaveCars(st);
    TallyHasCars(ms, ps);
    RankedCounts(ms, ps);
  }

  /** Each ranked row carries its model's number of counted sales and its
      model's average price. */
  lemma RankedCounts(ms: seq<int>, ps: seq<Priced>)
    requires forall i :: 0 <= i < |Tally(ms)| ==> CarCount(ps, Tally(ms)[i].model) > 0
    ensures forall x :: x in Top3(Stats(Tally(ms), ps)) ==>
              && x.sales == multiset(ms)[x.model]
              && CarCount(ps, x.model) > 0 && x.avg == Average(ps, x.model)
  {
    var stats := Stats(Tally(ms), ps);
    forall x | x in Top3(stats)
      ensures x.sales == multiset(ms)[x.model]
      ensures CarCount(ps, x.model) > 0 && x.avg == Average(ps, x.model)
    {
      TopMember(stats, x);
      StatRow(ms, ps, x);
    }
  }

  lemma TopMember(stats: seq<Ranked>, x: Ranked)
    requires x in Top3(stats)
    ensures x in stats
  {
    var sorted := Sort(stats, RankLe);
    assert x in sorted;
    assert x in multiset(sorted);
  }

  lemma StatRow(ms: seq<int>, ps: seq<Priced>, x: Ranked)
    requires forall i :: 0 <= i < |Tally(ms)| ==> CarCount(ps, Tally(ms)[i].model) > 0
    requires x in Stats(Tally(ms), ps)
    ensures x.sales == multiset(ms)[x.model]
    ensures CarCount(ps, x.model) > 0 && x.avg == Average(ps, x.model)
  {
    var t := Tally(ms);
    var i :| 0 <= i < |t| && Stats(t, ps)[i] == x;
    TallyKeys(ms);
    FirstOccurrencesSpec(ms);
    assert forall a :: 0 <= a < |t| ==> t[a].model == Keys(t)[a];
    CountOfDistinct(t, i);
    TallyCount(ms, x.model);
  }

  /** Two models with two sales each and one with one: the higher average
      wins the tie, and the single sale comes last. */
  lemma RankingExample()
    ensures Top3([Ranked(1, 2, 10000.0), Ranked(2, 2, 20000.0), Ranked(3, 1, 5000.0)])
         == [Ranked(2, 2, 20000.0), Ranked(1, 2, 10000.0), Ranked(3, 1, 5000.0)]
  {
    var s := [Ranked(1, 2, 10000.0), Ranked(2, 2, 20000.0), Ranked(3, 1, 5000.0)];
    assert s[..2][..1] == [s[0]];
    assert s[..2] == [s[0], s[1]];
    assert Sort([s[0]], RankLe) == [s[0]];
    assert Sort(s[..2], RankLe) == [s[1], s[0]];
  }

  lemma {:induction false} TallyPositive(ms: seq<int>)
    ensures forall i :: 0 <= i < |Tally(ms)| ==> Tally(ms)[i].sales > 0
    decreases |ms|
  {
    if ms != [] {
      TallyPositive(ms[..|ms| - 1]);
      BumpPositive(Tally(ms[..|ms| - 1]), ms[|ms| - 1]);
    }
  }

  lemma {:induction false} BumpPositive(t: seq<Tallied>, m: int)
    requires forall i :: 0 <= i < |t| ==> t[i].sales > 0
    ensures forall i :: 0 <= i < |Bump(t, m)| ==> Bump(t, m)[i].sales > 0
    decreases |t|
  {
    if t != [] && t[0].model != m {
      BumpPositive(t[1..], m);
    }
  }

  /** `ModelSaleStats` for one ranked row: its model's name and brand, as
      `strip()` leaves them, from the line the models index points at. */
  function NameOf(models: Table): Ranked -> Result<ModelSaleStats> {
    (x: Ranked) =>
      match Lookup(models.index, Num(x.model))
      case None => Err(MissingKey)
      case Some(n) =>
        if n >= |models.lines| then Err(IndexOutOfRange)
        else
          var f := Fields(models.lines[n]);
          if |f| < 3 then Err(IndexOutOfRange)
          else Ok(ModelSaleStats(Strip(f[1]), Strip(f[2]), x.sales))
  }

  /** `top_models_by_sales` */
  function TopModelsBySales(st: Store): (r: Result<seq<ModelSaleStats>>)
    ensures r.Ok? ==> Ranking(st).Ok? && |r.value| == |Ranking(st).value| <= 3
    ensures r.Ok? ==> forall i :: 0 <= i < |r.value| ==> r.value[i].salesNumber == Ranking(st).value[i].sales > 0
    ensures r.Ok? ==> forall i, j :: 0 <= i < j < |r.value| ==> r.value[i].salesNumber >= r.value[j].salesNumber
    ensures Ranking(st).Ok? ==>
              (r.Ok? <==> forall i :: 0 <= i < |Ranking(st).value| ==> NameOf(st.models)(Ranking(st).value[i]).Ok?)
    ensures r.Ok? ==> forall i :: 0 <= i < |r.value| ==>
              && Resolves(st.models, Num(Ranking(st).value[i].model))
              && var mp := ResolvedFields(st.models, Num(Ranking(st).value[i].model));
              && |mp| >= 3
              && r.value[i].carModelName == Strip(mp[1])
              && r.value[i].brand == Strip(mp[2])
  {
    var top :- Ranking(st);
    var r := Traverse(top, NameOf(st.models));
    assert r.Ok? ==> forall i, j :: 0 <= i < j < |top| ==> RankLe(top[i], top[j]);
    r
  }
}
